=== FILE: README.md ===
# StreamFX face detection and weak source references, modelled in Dafny

This project models two pieces of StreamFX, the OBS Studio plug-in.

The first is `ar::facedetection`. It drives the NVIDIA Augmented Reality SDK face detector.
- It owns three GPU images: the input texture, the source image and a scratch image.
- It owns two buffers, one of rectangles and one of confidences. Each has one entry per face it may track.
- It owns a bounds view, `_bboxes`, that the vendor graph writes its results through.
- It keeps a `_dirty` flag that says the loaded graph is stale.

Every vendor call is recorded in a call log. Its outcome (success or a vendor error code) is a parameter of the operation, so every failing vendor call of the code is modelled. The call that fails throws, and the state stays as it was at that point. Allocations of GPU images and of the buffers are modelled as always succeeding (see Left out).

When the graph is loaded, the model records what was bound to it at that moment: whether the view is bound as "BoundingBoxes", and the values bound to "BoundingBoxesConfidence", "Temporal" and "Image". The confidence buffer is bound by the address of its storage, which a resize may move, so its value records the storage generation as well as the length. A run is *current* when the graph was loaded for exactly what the buffers and the source image call for then.

The model has four parts:
- `FaceDetectionSpec` gives the state as a value and every operation as a function from a state to an outcome and a new state.
- `FaceDetectionPipeline.FaceDetection` is the object itself. Its fields are updated in place, and each method is proved to move its state exactly as the matching function does.
- `FaceDetectionProperties` proves what the code promises across calls:
  - the tracking limit is clamped;
  - `resize` is idempotent;
  - a frame of the same size reallocates nothing, and a frame of a new size reallocates and reloads;
  - results read back in order;
  - from a constructed pipeline, the graph only ever runs when it is clean, and, as long as no parameter binding fails, every run is current.
- `FaceDetectionCorrected` holds the corrections of the Findings: `set_tracking_limit` marks the pipeline dirty on every exit, and `load` rebinds every parameter before it loads. With both, every run from a constructed pipeline is clean and current, whichever vendor calls fail.

The second is `obs::weak_source`. It is an owning wrapper around an OBS weak source reference.
- `Host` models the reference counts that libobs keeps. Its ghost multisets say who owns each reference: wrappers (`held`) or anyone else (`others`). Its invariant is that every count equals the number of owned references.
- `Host` also keeps a ghost registry with one slot per wrapper, holding the handle that wrapper holds. The wrappers' references are exactly one per non-null handle in the registry (`Host.Accounted`, equal to `Owned(registry)` by `Host.HeldIsOwned`).
- `WeakSource` is the wrapper. Its constructors, copy and move operations, `reset` and destructor are proved to keep both invariants, to update its registry slot, and to add or release exactly the references the code does.
- Its comparisons are proved to form a strict total order that is consistent with equality, with handles ordered as flat addresses (see Left out).

The code is followed wherever the documented behaviour differs from it. One example: `at(index)` lets an index equal to `count()` through. Where the code departs from what it evidently intends, Findings names both the member that models the code as written and the corrected member.

## Model

| member | source | states |
|---|---|---|
| FaceDetectionSpec.AtLeastOne | source/nvidia/ar/nvidia-ar-facedetection.cpp:87 | the limit is at least one and equals the request when that is positive |
| FaceDetectionSpec.ToUint8 | source/nvidia/ar/nvidia-ar-facedetection.cpp:95 | the cast to `uint8_t` keeps the value modulo 256 and is below 256 |
| FaceDetectionSpec.Resized | source/nvidia/ar/nvidia-ar-facedetection.cpp:90-91 | `vector::resize`: the new length is the requested one, existing entries are kept, new ones are value-initialised |
| FaceDetectionSpec.BoundConfigAfter | source/nvidia/ar/nvidia-ar-facedetection.cpp:221-237 | a call that binds none of the four configured parameters leaves the bound configuration as it was |
| FaceDetectionSpec.TrackingLimitRange | source/nvidia/ar/nvidia-ar-facedetection.cpp:74-77 | the range is from 1 to the maximum of 8 tracked faces, and every value in it survives the clamp and the cast |
| FaceDetectionSpec.WithLimit | source/nvidia/ar/nvidia-ar-facedetection.cpp:86-96 | both buffers take the clamped length, the view points at the moved buffer with a one-byte maximum and no faces, and a limit of at least one keeps the view's maximum and count within the buffers |
| FaceDetectionSpec.LimitCalls | source/nvidia/ar/nvidia-ar-facedetection.cpp:98-108 | the view is bound first, then the current confidence storage with the limit's length, then "Temporal" exactly for one face; every call before the last succeeded, and fewer than three calls means the last one failed |
| FaceDetectionSpec.LimitOutcome | source/nvidia/ar/nvidia-ar-facedetection.cpp:98-108 | success only when all three bindings succeed; otherwise the exception carries the key and the error code of the first binding that failed |
| FaceDetectionSpec.LimitCallsBind | source/nvidia/ar/nvidia-ar-facedetection.cpp:98-108 | when all three bindings succeed, the view, the confidence storage with the limit's length and "Temporal" for one face are what is bound |
| FaceDetectionSpec.SetTrackingLimit | source/nvidia/ar/nvidia-ar-facedetection.cpp:84-112 | the limit and the view's maximum follow the clamped request, and the count is reset. The pipeline is dirty after success and unchanged in that respect after a throw. The outcome is success exactly when all bindings succeed |
| FaceDetectionSpec.SetTrackingLimitBinds | source/nvidia/ar/nvidia-ar-facedetection.cpp:98-108 | on success the graph is bound to the new view, to the moved confidence storage with the new length and to "Temporal" exactly when one face is tracked; if the image binding was current, every binding then follows the buffers |
| FaceDetectionSpec.LimitKeepsOtherBindings | source/nvidia/ar/nvidia-ar-facedetection.cpp:84-112 | setting the limit leaves the CUDA stream and "Image" bindings as they were |
| FaceDetectionSpec.Resize | source/nvidia/ar/nvidia-ar-facedetection.cpp:184-219 | the scratch image is made once. The input and source are (re)allocated exactly when their size differs, and then the pipeline is dirtied. The source is rebound as "Image", and a failed binding throws and leaves the old binding in place |
| FaceDetectionSpec.AllocateInput | source/nvidia/ar/nvidia-ar-facedetection.cpp:189-202 | the scratch image on the first call, the input texture when absent or of another size, which dirties the pipeline; nothing is bound |
| FaceDetectionSpec.ReplaceSource | source/nvidia/ar/nvidia-ar-facedetection.cpp:204-218 | the source is (re)allocated, then "Image" is bound to it; only a successful binding dirties, a failed one throws |
| FaceDetectionSpec.ResizeKeepsFresh | source/nvidia/ar/nvidia-ar-facedetection.cpp:184-219 | on a valid pipeline, every reallocation dirties, so a current pipeline stays current; the bindings keep following the buffers unless the "Image" binding of a new source fails |
| FaceDetectionSpec.Load | source/nvidia/ar/nvidia-ar-facedetection.cpp:221-237 | rebinds only the stream and reloads; success exactly when both succeed, and then the pipeline is clean and the graph is loaded for what the log has bound. The result is current exactly when the bindings followed the buffers |
| FaceDetectionSpec.Publish | source/nvidia/ar/nvidia-ar-facedetection.cpp:156 | a run writes as many of the best faces as the view's maximum allows, in order, and sets the count to that number |
| FaceDetectionSpec.Convert | source/nvidia/ar/nvidia-ar-facedetection.cpp:132-159 | copy, then transfer, then run; a failed transfer throws before the run, a failed run throws after it. Nothing is bound, and a clean current pipeline runs current |
| FaceDetectionSpec.ReloadIfDirty | source/nvidia/ar/nvidia-ar-facedetection.cpp:127-130 | reloads exactly when dirty, for what the log has bound, and is clean whenever it succeeds |
| FaceDetectionSpec.Process | source/nvidia/ar/nvidia-ar-facedetection.cpp:114-160 | resize, reload if dirty, convert, run. It keeps the invariants and the limit and only appends to the call log. The input ends at the frame's size. It succeeds exactly when every step does, and then it is clean. When the bindings followed the buffers and the image binding does not fail, it stays current |
| FaceDetectionSpec.ProcessReports | source/nvidia/ar/nvidia-ar-facedetection.cpp:132-159 | a successful frame publishes the run's faces; a failed transfer is the last call; a failed run was still a clean one |
| FaceDetectionSpec.Count | source/nvidia/ar/nvidia-ar-facedetection.cpp:162-165 | the count never exceeds the view's maximum or the limit |
| FaceDetectionSpec.At | source/nvidia/ar/nvidia-ar-facedetection.cpp:173-182 | as written: an empty result throws, an index above the count throws, and otherwise the bounds-checked vector access either throws "vector out of range" or returns the rectangle with its confidence |
| FaceDetectionSpec.AtRect | source/nvidia/ar/nvidia-ar-facedetection.cpp:167-171 | the one-argument form returns the rectangle of the two-argument form and fails exactly when it fails |
| FaceDetectionSpec.AtChecked | source/nvidia/ar/nvidia-ar-facedetection.cpp:173-182 | corrected: succeeds exactly for an index below the count, with the entry at that index |
| FaceDetectionSpec.Configure | source/nvidia/ar/nvidia-ar-facedetection.cpp:61-71 | after the stream binding: sizes the buffers, sets a limit of one and loads. On success the graph is loaded for what is bound: the view, one confidence, "Temporal" on, and the image as it was. The pipeline is still dirty |
| FaceDetectionSpec.Create | source/nvidia/ar/nvidia-ar-facedetection.cpp:50-72 | success exactly when every vendor call succeeds. The pipeline is then valid and dirty, with limit 1, maximum 1, no faces and no images. It is bound to the stream and to "Temporal", every binding follows the buffers, and the graph is loaded for one face and no image |
| FaceDetectionProperties.SetTrackingLimitZeroIsOne | source/nvidia/ar/nvidia-ar-facedetection.cpp:86-87 | a limit of zero behaves exactly like a limit of one |
| FaceDetectionProperties.SetTrackingLimitInRange | source/nvidia/ar/nvidia-ar-facedetection.cpp:84-108 | within the advertised range, the limit, both buffers and the view's maximum equal the request, and "Temporal" is on exactly for one face |
| FaceDetectionProperties.SetTrackingLimitTruncatesMaximum | source/nvidia/ar/nvidia-ar-facedetection.cpp:90-95 | a limit of 256 gives 256-entry buffers but a view whose maximum is 0 |
| FaceDetectionProperties.SetTrackingLimitAlwaysDirties | source/nvidia/ar/nvidia-ar-facedetection.cpp:110-111 | setting the current limit again still dirties a clean pipeline |
| FaceDetectionProperties.SetTrackingLimitKeepsFresh | source/nvidia/ar/nvidia-ar-facedetection.cpp:84-112 | when all three bindings succeed, the pipeline is dirty, stays current and keeps its bindings following the buffers |
| FaceDetectionProperties.ResizeIdempotent | source/nvidia/ar/nvidia-ar-facedetection.cpp:184-219 | a second resize to the same size does nothing and cannot fail |
| FaceDetectionProperties.SameFrameNoReallocation | source/nvidia/ar/nvidia-ar-facedetection.cpp:114-160 | after a successful frame, a frame of the same size only copies, transfers and runs clean |
| FaceDetectionProperties.NewFrameSizeReallocatesAndReloads | source/nvidia/ar/nvidia-ar-facedetection.cpp:114-160 | after a successful frame, a frame of another size makes exactly a known list of calls. It reallocates input and source, rebinds the image, reloads with the new image and runs clean, going from clean to dirty to clean |
| FaceDetectionProperties.NewSizeFromCleanState | source/nvidia/ar/nvidia-ar-facedetection.cpp:124-159 | the same, from any clean valid state whose input has the old size |
| FaceDetectionProperties.NewSizeResizeThenLoad | source/nvidia/ar/nvidia-ar-facedetection.cpp:124-130 | on a new size, resize dirties and the reload that follows loads with the new image |
| FaceDetectionProperties.FirstFrameAllocatesAndReloads | source/nvidia/ar/nvidia-ar-facedetection.cpp:50-72 | the constructor leaves the pipeline dirty, so the first frame allocates all three images, binds the image and then reloads |
| FaceDetectionProperties.FirstFrameResizeThenLoad | source/nvidia/ar/nvidia-ar-facedetection.cpp:124-130 | on unallocated images, resize dirties, so load follows it |
| FaceDetectionProperties.FirstFrameFromUnallocated | source/nvidia/ar/nvidia-ar-facedetection.cpp:114-160 | from any valid state without images, a frame begins with the same five calls |
| FaceDetectionProperties.ResultsReadBack | source/nvidia/ar/nvidia-ar-facedetection.cpp:162-182 | after a successful frame, the count is the number of faces found, capped by the maximum, and `at(i)` returns the i-th face |
| FaceDetectionProperties.NoFacesIsEmptyNotOutOfRange | source/nvidia/ar/nvidia-ar-facedetection.cpp:175-176 | with no faces found, both forms of `at` fail as "no tracked faces" for every index |
| FaceDetectionProperties.AtAcceptsIndexEqualToCount | source/nvidia/ar/nvidia-ar-facedetection.cpp:177-180 | as written, an index equal to the count returns the entry past the last face |
| FaceDetectionProperties.AtOnePastTheEndAfterFrame | source/nvidia/ar/nvidia-ar-facedetection.cpp:177-181 | as written: with a limit of two and one face found, `at(1)` returns an empty entry, not an error |
| FaceDetectionProperties.StaleRunAfterFailedBinding | source/nvidia/ar/nvidia-ar-facedetection.cpp:98-111 | as written: a failed binding that changes the limit leaves a clean pipeline, so the next frame runs clean with the graph loaded for a confidence array of the old length |
| FaceDetectionProperties.StaleImageAfterFailedBinding | source/nvidia/ar/nvidia-ar-facedetection.cpp:204-237 | as written: after a failed "Image" binding on a pipeline without images, the next frame of the same size neither reallocates nor rebinds, reloads, and runs with no image bound |
| FaceDetectionProperties.Apply | source/nvidia/ar/nvidia-ar-facedetection.cpp:84-237 | any one member call as written, returning or throwing, keeps the invariants; one whose bindings all succeed also keeps the pipeline current |
| FaceDetectionProperties.Replay | source/nvidia/ar/nvidia-ar-facedetection.cpp:84-237 | any sequence of member calls as written keeps the invariants, and keeps the pipeline current while every binding succeeds |
| FaceDetectionProperties.EveryRunCleanAsWritten | source/nvidia/ar/nvidia-ar-facedetection.cpp:127-159 | as written, from a constructed pipeline, every run of the graph is clean, and every run is current as long as no binding fails |
| FaceDetectionCorrected.SetTrackingLimitMarked | source/nvidia/ar/nvidia-ar-facedetection.cpp:84-112 | corrected: dirty on every exit, with the outcome and limit of the code as written, keeping the invariants and currency |
| FaceDetectionCorrected.Rebind | source/nvidia/ar/nvidia-ar-facedetection.cpp:98-108 | the bindings the corrected load makes, stopping at the first failure; when all succeed on a pipeline with images, every binding follows the buffers |
| FaceDetectionCorrected.LoadRebinding | source/nvidia/ar/nvidia-ar-facedetection.cpp:221-237 | corrected: rebinds, then loads as written. Success exactly when every call succeeds, and then the graph is loaded for what the buffers and image call for. A throw leaves dirty and the loaded graph as they were. It keeps the pipeline current |
| FaceDetectionCorrected.ProcessRebinding | source/nvidia/ar/nvidia-ar-facedetection.cpp:114-160 | `process` with the corrected load keeps the invariants and currency and only appends to the call log |
| FaceDetectionCorrected.Apply | source/nvidia/ar/nvidia-ar-facedetection.cpp:84-237 | any one corrected member call, returning or throwing, keeps the invariants and currency |
| FaceDetectionCorrected.Replay | source/nvidia/ar/nvidia-ar-facedetection.cpp:84-237 | any sequence of corrected member calls keeps the invariants and currency |
| FaceDetectionCorrected.EveryRunCurrentWhenCorrected | source/nvidia/ar/nvidia-ar-facedetection.cpp:127-159 | with both corrections, from a constructed pipeline, every run is clean and current, whichever vendor calls fail |
| FaceDetectionCorrected.LimitRetriedWhenCorrected | source/nvidia/ar/nvidia-ar-facedetection.cpp:98-111 | corrected: after a failed binding of `set_tracking_limit`, the pipeline is dirty, and the next frame of the same size binds the new buffers again and runs current |
| FaceDetectionCorrected.ImageRetriedWhenCorrected | source/nvidia/ar/nvidia-ar-facedetection.cpp:204-237 | corrected: after a failed "Image" binding, the next frame of the same size rebinds the image and runs current |
| FaceDetectionPipeline.FaceDetection.Init | source/nvidia/ar/nvidia-ar-facedetection.cpp:50-52 | the object starts in the initial state |
| FaceDetectionPipeline.FaceDetection.BindParameter | source/nvidia/ar/nvidia-ar-facedetection.cpp:99-107 | a binding is appended to the call log with its outcome |
| FaceDetectionPipeline.FaceDetection.LoadFeature | source/nvidia/ar/nvidia-ar-facedetection.cpp:232 | a load is logged and binds nothing; on success the graph is loaded for what is bound |
| FaceDetectionPipeline.FaceDetection.RunFeature | source/nvidia/ar/nvidia-ar-facedetection.cpp:156 | a run is logged, and on success the faces found are written through the view |
| FaceDetectionPipeline.FaceDetection.Create | source/nvidia/ar/nvidia-ar-facedetection.cpp:50-72 | the constructor yields a fresh object in the state `Create` describes, or no object when it throws |
| FaceDetectionPipeline.FaceDetection.Configure | source/nvidia/ar/nvidia-ar-facedetection.cpp:61-71 | moves the object as `Configure` describes |
| FaceDetectionPipeline.FaceDetection.TrackingLimitRange | source/nvidia/ar/nvidia-ar-facedetection.cpp:74-77 | agrees with `TrackingLimitRange` |
| FaceDetectionPipeline.FaceDetection.TrackingLimit | source/nvidia/ar/nvidia-ar-facedetection.cpp:79-82 | the length of the rectangle buffer |
| FaceDetectionPipeline.FaceDetection.SetTrackingLimit | source/nvidia/ar/nvidia-ar-facedetection.cpp:84-112 | moves the object as `SetTrackingLimit` describes; the buffers and view then agree with the limit, and a valid object stays valid |
| FaceDetectionPipeline.FaceDetection.Resize | source/nvidia/ar/nvidia-ar-facedetection.cpp:184-219 | keeps the object valid and moves it as `Resize` describes |
| FaceDetectionPipeline.FaceDetection.AllocateInput | source/nvidia/ar/nvidia-ar-facedetection.cpp:189-202 | moves the object as `AllocateInput` describes |
| FaceDetectionPipeline.FaceDetection.ReplaceSource | source/nvidia/ar/nvidia-ar-facedetection.cpp:204-218 | moves the object as `ReplaceSource` describes |
| FaceDetectionPipeline.FaceDetection.Load | source/nvidia/ar/nvidia-ar-facedetection.cpp:221-237 | keeps the object valid and moves it as `Load` describes |
| FaceDetectionPipeline.FaceDetection.Process | source/nvidia/ar/nvidia-ar-facedetection.cpp:114-160 | keeps the object valid and moves it as `Process` describes |
| FaceDetectionPipeline.FaceDetection.Convert | source/nvidia/ar/nvidia-ar-facedetection.cpp:132-159 | moves a clean object as `Convert` describes |
| FaceDetectionPipeline.FaceDetection.Count | source/nvidia/ar/nvidia-ar-facedetection.cpp:162-165 | agrees with `Count` |
| FaceDetectionPipeline.FaceDetection.At | source/nvidia/ar/nvidia-ar-facedetection.cpp:173-182 | agrees with `At` as written |
| FaceDetectionPipeline.FaceDetection.AtRect | source/nvidia/ar/nvidia-ar-facedetection.cpp:167-171 | agrees with `AtRect` |
| ObsWeakSource.Own | source/obs/obs-weak-source.hpp:28-29 | a wrapper owns one reference to its handle, or none when the handle is null |
| ObsWeakSource.Owned | source/obs/obs-weak-source.hpp:28-29 | the references owned by a collection of wrappers never include null |
| ObsWeakSource.OwnedCountsHolders | source/obs/obs-weak-source.hpp:28-29 | the references wrappers own to a handle equal the number of wrappers holding it |
| ObsWeakSource.OwnedUpdate | source/obs/obs-weak-source.hpp:111-133 | replacing one wrapper's handle changes the owned references by exactly the old and the new handle |
| ObsWeakSource.MoveKeepsOwned | source/obs/obs-weak-source.hpp:111-119 | a move assignment between two wrappers releases only the target's old handle |
| ObsWeakSource.CopyAddsOne | source/obs/obs-weak-source.hpp:124-133 | a copy assignment releases the target's old handle and adds one reference to the copied one |
| ObsWeakSource.OwnedAppend | source/obs/obs-weak-source.hpp:49-55 | a new wrapper adds exactly its own reference |
| ObsWeakSource.OwnedIsHolders | source/obs/obs-weak-source.hpp:28-37 | the references owned by the wrappers of a registry are exactly its non-null handles, one per wrapper |
| ObsWeakSource.ClearSlot | source/obs/obs-weak-source.hpp:149-155 | emptying a slot that holds a handle removes exactly that one reference; emptying an empty slot changes nothing |
| ObsWeakSource.MoveIntoEmpty | source/obs/obs-weak-source.hpp:111-119 | moving a handle from one slot into an empty one keeps the references owned |
| ObsWeakSource.CopyIntoEmpty | source/obs/obs-weak-source.hpp:124-133 | copying a handle into an empty slot adds exactly that handle's reference |
| ObsWeakSource.TwoHolders | source/obs/obs-weak-source.hpp:102-106 | two wrappers holding the same non-null handle account for at least two references |
| ObsWeakSource.Host.HeldIsOwned | source/obs/obs-weak-source.hpp:28-37 | while every wrapper is accounted for, the references the host counts for wrappers are what the wrappers own |
| ObsWeakSource.Host.AddRef | source/obs/obs-weak-source.hpp:54 | adds one reference to a non-null handle and ignores null, keeping counts equal to owners |
| ObsWeakSource.Host.Release | source/obs/obs-weak-source.hpp:35 | releases exactly the one reference a wrapper owned |
| ObsWeakSource.Host.ReleaseSlot | source/obs/obs-weak-source.hpp:35 | releasing a wrapper's handle drops one count and empties its slot, keeping every wrapper accounted for |
| ObsWeakSource.Host.GetWeakSource | source/obs/obs-weak-source.hpp:61 | a new reference to the source's own weak handle, or null when it has none |
| ObsWeakSource.Host.Adopt | source/obs/obs-weak-source.hpp:49-55 | taking ownership moves a reference from its caller to the wrapper without changing any count |
| ObsWeakSource.Host.Transfer | source/obs/obs-weak-source.hpp:115-116 | moving a handle between two slots changes no count and keeps every wrapper accounted for |
| ObsWeakSource.Host.Detach | source/obs/obs-weak-source.hpp:93-97 | a slot handed over to a new wrapper keeps its reference for that wrapper |
| ObsWeakSource.Host.Fill | source/obs/obs-weak-source.hpp:128-130 | a slot filled with a handle whose reference was just added keeps every wrapper accounted for |
| ObsWeakSource.WeakSource.Empty | source/obs/obs-weak-source.hpp:43 | the default wrapper holds nothing and is expired |
| ObsWeakSource.WeakSource.Wrap | source/obs/obs-weak-source.hpp:49-55 | a new wrapper holding a handle takes a new slot recording that handle |
| ObsWeakSource.WeakSource.FromHandle | source/obs/obs-weak-source.hpp:49-55 | null is rejected with no call. Otherwise the wrapper holds the handle and either adds a reference or takes over the caller's |
| ObsWeakSource.WeakSource.FromSource | source/obs/obs-weak-source.hpp:59-73 | succeeds exactly for a source with a weak handle; the wrapper then holds a new reference to that source |
| ObsWeakSource.WeakSource.FromName | source/obs/obs-weak-source.hpp:79-87 | succeeds exactly for a known name; the wrapper then holds a new reference to that source |
| ObsWeakSource.WeakSource.Move | source/obs/obs-weak-source.hpp:93-97 | the handle changes wrapper, the moved-from wrapper is empty, and no count changes |
| ObsWeakSource.WeakSource.Copy | source/obs/obs-weak-source.hpp:102-106 | both wrappers hold the handle, with one more reference, and addref is called even for null; the wrappers own exactly one more reference to the handle, which is what the host counts for them |
| ObsWeakSource.WeakSource.Dispose | source/obs/obs-weak-source.hpp:32-37 | the destructor releases the held reference once and empties its slot, and makes no call for null; every wrapper left stays accounted for |
| ObsWeakSource.WeakSource.Reset | source/obs/obs-weak-source.hpp:149-155 | releases the held reference once, then holds nothing |
| ObsWeakSource.WeakSource.MoveAssign | source/obs/obs-weak-source.hpp:111-119 | releases the target's reference and takes the other's handle, leaving the other empty, with no other call. Self-assignment empties the wrapper |
| ObsWeakSource.WeakSource.MoveFrom | source/obs/obs-weak-source.hpp:111-119 | between two wrappers: one release of the target's reference, then the other's handle changes wrapper; the wrappers own exactly the target's old reference fewer |
| ObsWeakSource.WeakSource.TakeOver | source/obs/obs-weak-source.hpp:115-116 | an emptied wrapper takes over the other's handle with no call and no count change |
| ObsWeakSource.WeakSource.CopyAssign | source/obs/obs-weak-source.hpp:124-133 | releases the target's reference, then adds one to the other's non-null handle. Self-assignment empties the wrapper |
| ObsWeakSource.WeakSource.CopyFrom | source/obs/obs-weak-source.hpp:124-133 | between two wrappers: one release of the target's reference, then one addref of the shared handle; the wrappers own the old reference fewer and one more of the shared handle |
| ObsWeakSource.WeakSource.ShareWith | source/obs/obs-weak-source.hpp:128-130 | an emptied wrapper takes one more reference to the other's handle |
| ObsWeakSource.WeakSource.Expired | source/obs/obs-weak-source.hpp:161-164 | an empty wrapper is expired; a wrapper that is not expired holds a handle whose source still exists |
| ObsWeakSource.WeakSource.IsLive | source/obs/obs-weak-source.hpp:186-189 | live exactly when not expired, and then it holds a handle |
| ObsWeakSource.WeakSource.EqualsHandle | source/obs/obs-weak-source.hpp:202-205 | equal to a handle only when both are null or neither is |
| ObsWeakSource.WeakSource.Equals | source/obs/obs-weak-source.hpp:192-195 | two wrappers are equal exactly when one equals the other's handle |
| ObsWeakSource.WeakSource.Less | source/obs/obs-weak-source.hpp:197-200 | a wrapper that orders before another is not equal to it |
| ObsWeakSource.WeakSource.EqualsSource | source/obs/obs-weak-source.hpp:207-215 | equal to a source only when both the handle and the source are non-null |
| ObsWeakSource.HolderKeepsCount | source/obs/obs-weak-source.hpp:28-37 | a wrapper holding a handle keeps its count at one or more |
| ObsWeakSource.SharedHandleCountsTwice | source/obs/obs-weak-source.hpp:102-106 | two wrappers sharing a handle keep its count at two or more |
| ObsWeakSource.SameHandleAgrees | source/obs/obs-weak-source.hpp:192-215 | two wrappers equal to the same handle are equal to each other, and agree on expiry and on every source |
| ObsWeakSource.OrderLaws | source/obs/obs-weak-source.hpp:192-200 | `<` is irreflexive and transitive, and with `==` it is total and exclusive |
| ObsWeakSource.EqualWrappersAgree | source/obs/obs-weak-source.hpp:192-195 | equal wrappers agree on expiry, on liveness and on which source they reference |

## Left out

- The graphics and CUDA context guards, profiling markers, logging and the destructor's debug message have no effect on the modelled state.
- GPU work is not modelled. This covers the texture copy, the image transfer and the detector itself. Their outcomes and the faces the detector finds are parameters of each operation.
- The vendor wrappers `set`, `set_object` and `feature::load`/`run` are not part of this model. Each is one logged call with a given outcome.
- The CUDA stream handle is a number supplied by the caller.
- `size_t` and `uint32_t` arguments are unbounded naturals. Only the `uint8_t` cast of the view's maximum is modelled, because it matters.
- `FaceDetectionSpec.Resize`: allocation failures are modelled as always succeeding. This covers `make_shared` of the three images, the texture and image resizes, and the vector resizes in `set_tracking_limit` (lines 90-91). A failed allocation in the code throws and may leave a partly resized pipeline. `ResourcesAgree` holds only because every allocation succeeds in the model.
- `FaceDetectionSpec.Process`: the model promises that a run is current only while every binding succeeds. Current means the graph is loaded for what the buffers and images call for. As written, a failed binding can leave the pipeline clean but not current (see Findings). The corrected pipeline keeps it current unconditionally.
- `Resized` models `vector::resize` as always moving the storage, which is a new generation of both buffers' storage. The real vector keeps its storage whenever the new size fits its capacity, which after the constructor's resize to 8 (lines 62-63) is every limit up to 8. The move is assumed only so that the results about current runs hold whatever the vector does; the capacity is not modelled, and no finding rests on a move.
- `RunFeature` assumes that the graph writes only through the bound view, and never past its maximum. The vendor's behaviour is not part of this model.
- `FaceDetectionSpec.Publish`: a run writes the faces found and their confidences whatever configuration the graph was loaded with. What a graph run with stale bindings would write is not modelled; the model records such a run as not current instead.
- `weak_source::get`, `lock`, `operator*` and the conversion to `obs_weak_source_t*` are not modelled. They return the held handle or hand out a source reference, which does not involve the reference accounting.
- The strong source reference taken and released inside the name constructor is not modelled. Sources and `obs::source` objects are identified by a `SourceId`.
- The libobs functions are not part of this model. `obs_weak_source_addref` and `obs_weak_source_release` are assumed to ignore null, and `obs_weak_source_references_source` is modelled as a lookup of the source that owns a weak handle.
- `ObsWeakSource.WeakSource.Dispose`: the wrapper object itself stays allocated after the destructor. A destroyed wrapper that held a handle is no longer `Valid`, so no method can be called on it. One that held nothing stays usable in the model.
- `ObsWeakSource.WeakSource.FromHandle`: without duplication, the caller must have owned the reference it hands over. This is the ownership transfer the code's comment describes, stated as a precondition.
- `ObsWeakSource.OrderLaws`: handles are natural numbers, so `<` on them is a strict total order. `operator<` applies the built-in `<` to raw pointers, which mainstream platforms order as flat addresses but the C++ standard orders only within one object (`std::less` would promise a total order). The order laws hold under that flat-address assumption.
- Exceptions are modelled as the outcome `Thrown`. Objects whose constructor throws are not returned.

## Findings

| source | as written | input that shows it | evidently intended | confidence | as-written member | corrected member |
|---|---|---|---|---|---|---|
| source/nvidia/ar/nvidia-ar-facedetection.cpp:177 | `at` rejects only an index greater than the count | limit 2, one face found, `at(1)` returns the empty second entry | reject every index not below the count | not executed | FaceDetectionProperties.AtAcceptsIndexEqualToCount | FaceDetectionSpec.AtChecked |
| source/nvidia/ar/nvidia-ar-facedetection.cpp:98-111 | `set_tracking_limit` marks the pipeline dirty only when every binding succeeds, after the buffers and view already changed | clean pipeline with limit 1; `set_tracking_limit(2)` whose confidence binding fails; then a frame of the same size runs the graph still bound to a confidence array of one entry and to "Temporal" on | mark the pipeline dirty as soon as the buffers change, and let the reload bind them again | not executed | FaceDetectionProperties.StaleRunAfterFailedBinding | FaceDetectionCorrected.LimitRetriedWhenCorrected |
| source/nvidia/ar/nvidia-ar-facedetection.cpp:204-237 | `resize` binds "Image" only when it reallocates the source, and `load` rebinds only the CUDA stream, so a failed "Image" binding is never retried | a pipeline without images; a first frame whose "Image" binding fails; then a frame of the same size reloads and runs with no image bound | bind every parameter the buffers and images call for before each load | not executed | FaceDetectionProperties.StaleImageAfterFailedBinding | FaceDetectionCorrected.LoadRebinding |

=== FILE: face_detection.dfy ===
/**
 * The face-detection pipeline object, `ar::facedetection`, with the fields it updates
 * in place. Every vendor call it makes is a method of its own that records the call
 * and reports the outcome it is given. Each public operation is proved to move the
 * object's state exactly as the matching function of FaceDetectionSpec describes;
 * the properties of those functions are in FaceDetectionProperties.
 */
module FaceDetectionPipeline {
  import opened FaceDetectionSpec

  class FaceDetection {
    /** The loaded graph is stale and must be reloaded before the next run. */
    var dirty: bool
    /** `_rects` and `_rects_confidence`: one entry per face that can be tracked. */
    var rects: seq<Rect>
    var rectsConfidence: seq<real>
    /** Which storage `_rects.data()` is; every resize of `_rects` may move it. */
    var generation: nat
    /** `_bboxes`, whose address is bound to the graph's "BoundingBoxes" output. */
    var bboxes: Bounds
    /** Sizes of `_input`, `_source` and `_tmp`; None while not allocated. */
    var input: Option<Dims>
    var source: Option<Dims>
    var tmp: Option<Dims>
    /** The configuration the graph was last loaded for: what was bound when it loaded. */
    ghost var loaded: Option<Config>
    /** Every vendor call made so far, in order. */
    ghost var calls: seq<Call>

    ghost function Model(): State
      reads this
    {
      State(dirty, rects, rectsConfidence, generation, bboxes, input, source, tmp, loaded, calls)
    }

    ghost predicate Valid()
      reads this
    {
      FaceDetectionSpec.Valid(Model())
    }

    /** The member initialisers: empty buffers, a null view, no images, dirty. */
    constructor Init()
      ensures Model() == Initial()
    {
      dirty := true;
      rects := [];
      rectsConfidence := [];
      generation := 0;
      bboxes := Bounds(Null, 0, 0);
      input, source, tmp := None, None, None;
      loaded := None;
      calls := [];
    }

    // -------------------------------------------------------------------------
    // The vendor calls

    /** `set` / `set_object`: bind a graph parameter. */
    method BindParameter(key: Key, value: Value, status: Status)
      modifies this`calls
      ensures calls == old(calls) + [Bind(key, value, status)]
    {
      calls := calls + [Bind(key, value, status)];
    }

    /** `feature::load`: compile the graph for the parameters bound now. */
    method LoadFeature(status: Status)
      modifies this`calls, this`loaded
      ensures calls == old(calls) + [LoadGraph(status)]
      ensures loaded == if status == Success then Some(BoundConfig(calls)) else old(loaded)
      ensures BoundConfig(calls) == BoundConfig(old(calls))
    {
      calls := calls + [LoadGraph(status)];
      BoundConfigAfter(old(calls), LoadGraph(status));
      if status == Success {
        loaded := Some(BoundConfig(calls));
      }
    }

    /**
     * `feature::run`: on success the graph writes the best faces it found, as many as
     * the view's maximum allows, through the view into the buffers.
     */
    method RunFeature(status: Status, dets: seq<Detection>)
      requires FaceDetectionSpec.BuffersFollowLimit(Model())
      modifies this`calls, this`rects, this`rectsConfidence, this`bboxes
      ensures var ran := Append(old(Model()), RunGraph(old(dirty), old(loaded), ConfigOf(old(Model())), status));
        Model() == if status == Success then Publish(ran, dets) else ran
    {
      calls := calls + [RunGraph(dirty, loaded, ConfigOf(Model()), status)];
      if status == Success {
        var k := Min(|dets|, bboxes.maximum);
        rects := RectsOf(dets[..k]) + rects[k..];
        rectsConfidence := ConfidencesOf(dets[..k]) + rectsConfidence[k..];
        bboxes := bboxes.(current := k);
      }
    }

    // -------------------------------------------------------------------------
    // Operations

    /** The constructor: on any failing vendor call no object results. */
    static method Create(stream: nat, o: CreateOracle) returns (p: FaceDetection?, r: Outcome)
      ensures r == FaceDetectionSpec.Create(stream, o).outcome
      ensures r.Done? ==> p != null && fresh(p) && p.Model() == FaceDetectionSpec.Create(stream, o).state
      ensures r.Thrown? ==> p == null
    {
      var q := new FaceDetection.Init();
      p := null;
      q.BindParameter(CudaStream, Stream(stream), o.stream);
      if o.stream.Failure? {
        r := Thrown(CvException(CudaStream, o.stream.code));
      } else {
        r := q.Configure(o);
        if r.Done? {
          p := q;
        }
      }
    }

    /** The constructor once the stream is bound. */
    method Configure(o: CreateOracle) returns (r: Outcome)
      modifies this
      ensures Step(r, Model()) == FaceDetectionSpec.Configure(old(Model()), o)
    {
      rects := Resized(rects, MaxTrackedFaces, EmptyRect);
      rectsConfidence := Resized(rectsConfidence, MaxTrackedFaces, 0.0);
      generation := generation + 1;
      assert Model() == SizedForMaxFaces(old(Model()));
      r := SetTrackingLimit(1, o.limit);
      if r.Done? {
        LoadFeature(o.load);
        if o.load.Failure? {
          r := Thrown(CvException(LoadStep, o.load.code));
        }
      }
    }

    /** `tracking_limit_range()`. */
    static function TrackingLimitRange(): (r: (nat, nat))
      ensures r == FaceDetectionSpec.TrackingLimitRange()
    {
      (1, MaxTrackedFaces)
    }

    /** `tracking_limit()`: the length of the box buffer. */
    function TrackingLimit(): (n: nat)
      reads this
      ensures n == FaceDetectionSpec.TrackingLimit(Model())
    {
      |rects|
    }

    /** `set_tracking_limit(v)`, as written. */
    method SetTrackingLimit(v: nat, o: LimitOracle) returns (r: Outcome)
      modifies this
      ensures FaceDetectionSpec.BuffersFollowLimit(Model())
      ensures old(Valid()) ==> Valid()
      ensures Step(r, Model()) == FaceDetectionSpec.SetTrackingLimit(old(Model()), v, o)
    {
      var n := AtLeastOne(v);
      rects := Resized(rects, n, EmptyRect);
      rectsConfidence := Resized(rectsConfidence, n, 0.0);
      generation := generation + 1;
      bboxes := Bounds(RectsData(generation), ToUint8(n), 0);
      ghost var s0 := Model();
      assert s0 == WithLimit(old(Model()), n);
      BindParameter(BoundingBoxes, BoundsStruct(bboxes), o.boxes);
      if o.boxes.Failure? {
        r := Thrown(CvException(BoundingBoxes, o.boxes.code));
      } else {
        BindParameter(BoundingBoxesConfidence, FloatArray(generation, n), o.confidence);
        if o.confidence.Failure? {
          r := Thrown(CvException(BoundingBoxesConfidence, o.confidence.code));
        } else {
          BindParameter(Temporal, Flag(n == 1), o.temporal);
          if o.temporal.Failure? {
            r := Thrown(CvException(Temporal, o.temporal.code));
          } else {
            dirty := true;
            r := Done;
          }
        }
      }
      assert calls == s0.calls + LimitCalls(s0.bboxes, s0.generation, n, o);
      assert r == LimitOutcome(o);
    }

    /** `resize(width, height)`. */
    method Resize(width: nat, height: nat, image: Status) returns (r: Outcome)
      requires Valid()
      modifies this
      ensures Valid()
      ensures Step(r, Model()) == FaceDetectionSpec.Resize(old(Model()), width, height, image)
    {
      var d := Dims(width, height);
      AllocateInput(d);
      r := Done;
      if source != Some(d) {
        r := ReplaceSource(d, image);
      }
    }

    /** The scratch image once, then the input texture when its size differs. */
    method AllocateInput(d: Dims)
      modifies this`tmp, this`input, this`dirty, this`calls
      ensures Model() == FaceDetectionSpec.AllocateInput(old(Model()), d)
    {
      if tmp.None? {
        tmp := Some(d);
        calls := calls + [Allocate(ScratchImage, None, d)];
      }
      if input != Some(d) {
        calls := calls + [Allocate(InputTexture, input, d)];
        input := Some(d);
        dirty := true;
      }
    }

    /** The source image (re)allocated and rebound as "Image". */
    method ReplaceSource(d: Dims, image: Status) returns (r: Outcome)
      modifies this`source, this`dirty, this`calls
      ensures Step(r, Model()) == FaceDetectionSpec.ReplaceSource(old(Model()), d, image)
    {
      calls := calls + [Allocate(SourceImage, source, d)];
      source := Some(d);
      BindParameter(Image, ImageOf(d), image);
      if image.Failure? {
        return Thrown(CvException(Image, image.code));
      }
      dirty := true;
      r := Done;
    }

    /** `load()`. */
    method Load(stream: nat, o: LoadOracle) returns (r: Outcome)
      requires Valid()
      modifies this
      ensures Valid()
      ensures Step(r, Model()) == FaceDetectionSpec.Load(old(Model()), stream, o)
    {
      BindParameter(CudaStream, Stream(stream), o.stream);
      if o.stream.Failure? {
        return Thrown(CvException(CudaStream, o.stream.code));
      }
      LoadFeature(o.load);
      if o.load.Failure? {
        return Thrown(CvException(LoadStep, o.load.code));
      }
      dirty := false;
      r := Done;
    }

    /** `process(frame)`. */
    method Process(frame: Dims, stream: nat, o: FrameOracle) returns (r: Outcome)
      requires Valid()
      modifies this
      ensures Valid()
      ensures Step(r, Model()) == FaceDetectionSpec.Process(old(Model()), frame, stream, o)
    {
      r := Resize(frame.width, frame.height, o.image);
      if r.Done? && dirty {
        r := Load(stream, o.load);
      }
      if r.Done? {
        r := Convert(o);
      }
    }

    /** The tail of `process`: copy and transfer the frame, then run the graph. */
    method Convert(o: FrameOracle) returns (r: Outcome)
      requires Valid() && !dirty
      modifies this
      ensures Step(r, Model()) == FaceDetectionSpec.Convert(old(Model()), o)
    {
      calls := calls + [CopyTexture];
      calls := calls + [TransferImage(o.transfer)];
      if o.transfer.Failure? {
        r := Thrown(TransferFailed);
      } else {
        RunFeature(o.run, o.detections);
        r := if o.run.Failure? then Thrown(CvException(RunStep, o.run.code)) else Done;
      }
    }

    /** `count()`. */
    function Count(): (n: nat)
      reads this
      ensures n == FaceDetectionSpec.Count(Model())
    {
      bboxes.current
    }

    /** `at(index, confidence)`, as written. */
    function At(index: nat): (r: Result<Detection>)
      reads this
      ensures r == FaceDetectionSpec.At(Model(), index)
    {
      if bboxes.current == 0 then Err(NoTrackedFaces)
      else if index > bboxes.current then Err(IndexTooLarge)
      else if index >= |rects| then Err(VectorOutOfRange)
      else if index >= |rectsConfidence| then Err(VectorOutOfRange)
      else Ok(Detection(rects[index], rectsConfidence[index]))
    }

    /** `at(index)`: delegates to the two-argument form. */
    function AtRect(index: nat): (r: Result<Rect>)
      reads this
      ensures r == FaceDetectionSpec.AtRect(Model(), index)
    {
      match At(index)
      case Ok(d) => Ok(d.rect)
      case Err(e) => Err(e)
    }
  }
}

=== FILE: face_detection_corrected.dfy ===
/**
 * The face-detection pipeline with the two corrections the Findings call for:
 * `set_tracking_limit` marks the pipeline dirty on every exit, and `load` rebinds every
 * parameter the buffers and images call for before it loads the graph. With both, every
 * run of the graph, from a constructed pipeline and whatever vendor call fails, happens
 * clean and with the graph loaded for what the buffers and images call for.
 */
module FaceDetectionCorrected {
  import opened FaceDetectionSpec

  /**
   * `set_tracking_limit` as evidently intended: the pipeline is dirty on every exit,
   * so a failed binding cannot leave a clean pipeline with changed buffers.
   */
  function SetTrackingLimitMarked(s: State, v: nat, o: LimitOracle): (r: Step)
    ensures r.state.dirty
    ensures r.outcome == SetTrackingLimit(s, v, o).outcome
    ensures TrackingLimit(r.state) == AtLeastOne(v) && r.state.bboxes.maximum == ToUint8(AtLeastOne(v))
    ensures Valid(s) ==> Valid(r.state)
    ensures Fresh(s) ==> Fresh(r.state)
  {
    var w := SetTrackingLimit(s, v, o);
    Step(w.outcome, w.state.(dirty := true))
  }

  /** Outcomes of the bindings a corrected `load` makes before the stream binding. */
  datatype RebindOracle = RebindOracle(limit: LimitOracle, image: Status)

  /**
   * `load` as evidently intended: first bind again what `set_tracking_limit` binds, and
   * the source image when there is one, stopping at the first failure; then `load` as
   * written. When it succeeds on a pipeline with images, the graph is loaded for exactly
   * what the buffers and images call for.
   */
  function LoadRebinding(s: State, stream: nat, rb: RebindOracle, o: LoadOracle): (r: Step)
    ensures r.state.rects == s.rects && r.state.confidence == s.confidence && r.state.generation == s.generation
    ensures r.state.bboxes == s.bboxes && r.state.input == s.input && r.state.source == s.source && r.state.tmp == s.tmp
    ensures RunsClean(r.state.calls) == RunsClean(s.calls) && RunsFresh(r.state.calls) == RunsFresh(s.calls)
    ensures |r.state.calls| > |s.calls| && r.state.calls[..|s.calls|] == s.calls
    ensures r.outcome.Done? <==>
      && rb.limit == LimitOracle(Success, Success, Success)
      && (s.source.Some? ==> rb.image == Success)
      && o == LoadOracle(Success, Success)
    ensures r.outcome.Done? ==> !r.state.dirty && Bound(r.state.calls, CudaStream) == Some(Stream(stream))
    ensures r.outcome.Done? && s.source.Some? ==>
      r.state.loaded == Some(ConfigOf(s)) && BindingsFollowBuffers(r.state)
    ensures r.outcome.Thrown? ==> r.state.dirty == s.dirty && r.state.loaded == s.loaded
    ensures Fresh(s) ==> Fresh(r.state)
  {
    var r1 := Rebind(s, rb);
    if r1.outcome.Thrown? then r1
    else
      PrefixAfterLoad(r1.state, stream, o);
      PrefixTrans(s.calls, r1.state.calls, Load(r1.state, stream, o).state.calls);
      Load(r1.state, stream, o)
  }

  /**
   * The bindings the corrected `load` makes: those of `set_tracking_limit` for the
   * current buffers, then "Image" for the source image when there is one.
   */
  function Rebind(s: State, rb: RebindOracle): (r: Step)
    ensures r.state == s.(calls := r.state.calls)
    ensures RunsClean(r.state.calls) == RunsClean(s.calls) && RunsFresh(r.state.calls) == RunsFresh(s.calls)
    ensures |r.state.calls| > |s.calls| && r.state.calls[..|s.calls|] == s.calls
    ensures r.outcome.Done? <==>
      rb.limit == LimitOracle(Success, Success, Success) && (s.source.Some? ==> rb.image == Success)
    ensures r.outcome.Done? && s.source.Some? ==> BindingsFollowBuffers(r.state)
    ensures Bound(r.state.calls, CudaStream) == Bound(s.calls, CudaStream)
  {
    var n := TrackingLimit(s);
    var made := LimitCalls(s.bboxes, s.generation, n, rb.limit);
    NoRunsKeepsRuns(s.calls, made);
    BoundSkips(s.calls, made, CudaStream);
    var t := s.(calls := s.calls + made);
    var limit := LimitOutcome(rb.limit);
    if limit.Thrown? then Step(limit, t)
    else if s.source.None? then Step(Done, t)
    else
      LimitCallsBind(s.calls, s.bboxes, s.generation, n, rb.limit);
      var c := Bind(Image, ImageOf(s.source.value), rb.image);
      AppendKeepsRuns(t.calls, c);
      BoundAfter(t.calls, c, BoundingBoxes);
      BoundAfter(t.calls, c, BoundingBoxesConfidence);
      BoundAfter(t.calls, c, Temporal);
      BoundAfter(t.calls, c, Image);
      BoundAfter(t.calls, c, CudaStream);
      var u := Append(t, c);
      if rb.image.Failure? then Step(Thrown(CvException(Image, rb.image.code)), u)
      else Step(Done, u)
  }

  /** `process` with the corrected `load`: resize, reload with rebinding when dirty, convert. */
  function ProcessRebinding(s: State, frame: Dims, stream: nat, rb: RebindOracle, o: FrameOracle): (r: Step)
    requires Valid(s)
    ensures Valid(r.state)
    ensures Fresh(s) ==> Fresh(r.state)
    ensures TrackingLimit(r.state) == TrackingLimit(s) && r.state.input == Some(frame)
    ensures |r.state.calls| > |s.calls| && r.state.calls[..|s.calls|] == s.calls
    ensures r.outcome.Done? ==> !r.state.dirty
  {
    var r1 := Resize(s, frame.width, frame.height, o.image);
    PrefixAfterResize(s, frame.width, frame.height, o.image);
    ResizeKeepsFresh(s, frame.width, frame.height, o.image);
    if r1.outcome.Thrown? then r1
    else if !r1.state.dirty then
      var r3 := Convert(r1.state, o);
      PrefixTrans(s.calls, r1.state.calls, r3.state.calls);
      r3
    else
      var r2 := LoadRebinding(r1.state, stream, rb, o.load);
      PrefixTrans(s.calls, r1.state.calls, r2.state.calls);
      if r2.outcome.Thrown? then r2
      else
        var r3 := Convert(r2.state, o);
        PrefixTrans(s.calls, r2.state.calls, r3.state.calls);
        r3
  }

  /** A public call on the corrected pipeline, with the outcomes of its vendor calls. */
  datatype Op =
    | SetLimit(v: nat, limit: LimitOracle)
    | ResizeTo(width: nat, height: nat, image: Status)
    | Reload(stream: nat, rebind: RebindOracle, load: LoadOracle)
    | ProcessFrame(frame: Dims, stream: nat, rebind: RebindOracle, oracle: FrameOracle)

  /** One corrected call, whether it returns or throws, keeps the invariants and freshness. */
  function Apply(s: State, op: Op): (r: State)
    requires Valid(s)
    ensures Valid(r)
    ensures Fresh(s) ==> Fresh(r)
  {
    match op
    case SetLimit(v, limit) => SetTrackingLimitMarked(s, v, limit).state
    case ResizeTo(width, height, image) =>
      ResizeKeepsFresh(s, width, height, image);
      Resize(s, width, height, image).state
    case Reload(stream, rebind, load) => LoadRebinding(s, stream, rebind, load).state
    case ProcessFrame(frame, stream, rebind, oracle) => ProcessRebinding(s, frame, stream, rebind, oracle).state
  }

  /** Any sequence of corrected calls keeps the invariants and freshness. */
  function Replay(s: State, ops: seq<Op>): (r: State)
    requires Valid(s)
    ensures Valid(r)
    ensures Fresh(s) ==> Fresh(r)
    decreases |ops|
  {
    if ops == [] then s else Replay(Apply(s, ops[0]), ops[1..])
  }

  /**
   * From a constructed pipeline, with both corrections, every run of the graph happens
   * clean and with the graph loaded for what the buffers and images call for, whichever
   * vendor calls fail along the way.
   */
  lemma EveryRunCurrentWhenCorrected(stream: nat, o: CreateOracle, ops: seq<Op>)
    requires Create(stream, o).outcome.Done?
    ensures RunsClean(Replay(Create(stream, o).state, ops).calls)
    ensures RunsFresh(Replay(Create(stream, o).state, ops).calls)
  {
  }

  /**
   * The corrected pipeline recovers from a failed binding of `set_tracking_limit`: the
   * pipeline is left dirty, so the next frame of the same size, with every vendor call
   * succeeding, binds the buffers again, reloads, and runs the graph loaded for them.
   */
  lemma LimitRetriedWhenCorrected(s: State, v: nat, o: LimitOracle, stream: nat, f: FrameOracle)
    requires Valid(s) && Fresh(s) && s.input.Some?
    requires o.boxes == Success && o.confidence.Failure?
    requires f.load == LoadOracle(Success, Success) && f.transfer == Success
    ensures var t := SetTrackingLimitMarked(s, v, o);
      var rb := RebindOracle(LimitOracle(Success, Success, Success), Success);
      var u := ProcessRebinding(t.state, s.input.value, stream, rb, f).state;
      && t.outcome == Thrown(CvException(BoundingBoxesConfidence, o.confidence.code))
      && t.state.dirty
      && Bound(u.calls, BoundingBoxesConfidence) == Some(FloatArray(u.generation, AtLeastOne(v)))
      && u.calls[|u.calls| - 1] == RunGraph(false, Some(ConfigOf(u)), ConfigOf(u), f.run)
      && RunsFresh(u.calls)
  {
    var t := SetTrackingLimitMarked(s, v, o).state;
    var frame := s.input.value;
    var rb := RebindOracle(LimitOracle(Success, Success, Success), Success);
    assert Resize(t, frame.width, frame.height, f.image) == Step(Done, t);
    var r2 := LoadRebinding(t, stream, rb, f.load);
    assert r2.outcome.Done? && r2.state.loaded == Some(ConfigOf(t)) && BindingsFollowBuffers(r2.state);
    var u := Convert(r2.state, f).state;
    assert ProcessRebinding(t, frame, stream, rb, f).state == u;
  }

  /**
   * The corrected pipeline retries the "Image" binding that failed: after a frame whose
   * binding fails, the next frame of that size, with every vendor call succeeding,
   * rebinds the image and runs the graph loaded for it.
   */
  lemma ImageRetriedWhenCorrected(s: State, frame: Dims, stream: nat, rb1: RebindOracle, f1: FrameOracle,
                                  f2: FrameOracle)
    requires Valid(s) && Fresh(s) && s.source.None?
    requires f1.image.Failure?
    requires f2.load == LoadOracle(Success, Success) && f2.transfer == Success
    ensures var t := ProcessRebinding(s, frame, stream, rb1, f1);
      var rb2 := RebindOracle(LimitOracle(Success, Success, Success), Success);
      var u := ProcessRebinding(t.state, frame, stream, rb2, f2).state;
      && t.outcome == Thrown(CvException(Image, f1.image.code))
      && Bound(u.calls, Image) == Some(ImageOf(frame))
      && u.calls[|u.calls| - 1] == RunGraph(false, Some(ConfigOf(u)), ConfigOf(u), f2.run)
      && RunsFresh(u.calls)
  {
    var t := ProcessRebinding(s, frame, stream, rb1, f1);
    assert t == ReplaceSource(AllocateInput(s, frame), frame, f1.image);
    var rb2 := RebindOracle(LimitOracle(Success, Success, Success), Success);
    var r1 := Resize(t.state, frame.width, frame.height, f2.image);
    assert r1 == Step(Done, t.state);
    var r2 := LoadRebinding(t.state, stream, rb2, f2.load);
    assert r2.outcome.Done? && r2.state.loaded == Some(ConfigOf(t.state)) && BindingsFollowBuffers(r2.state);
    var u := Convert(r2.state, f2).state;
    assert ProcessRebinding(t.state, frame, stream, rb2, f2).state == u;
  }
}

=== FILE: face_detection_properties.dfy ===
/**
 * Properties of the face-detection pipeline model that relate several operations:
 * clamping of the tracking limit, idempotence of `resize`, what two consecutive
 * frames allocate and reload, how results are read back, what any sequence of calls
 * keeps, and the places where the code as written departs from what it evidently
 * intends (see README, Findings; the corrections are in FaceDetectionCorrected).
 */
module FaceDetectionProperties {
  import opened FaceDetectionSpec

  // ---------------------------------------------------------------------------
  // set_tracking_limit

  /** A limit of zero is treated exactly like a limit of one. */
  lemma SetTrackingLimitZeroIsOne(s: State, o: LimitOracle)
    ensures SetTrackingLimit(s, 0, o) == SetTrackingLimit(s, 1, o)
    ensures TrackingLimit(SetTrackingLimit(s, 0, o).state) == 1
  {
    assert AtLeastOne(0) == AtLeastOne(1) == 1;
  }

  /**
   * Within the advertised range the limit, both buffer lengths and the view's maximum
   * all equal `v`, and "Temporal" is switched on exactly for a single face.
   */
  lemma SetTrackingLimitInRange(s: State, v: nat, o: LimitOracle)
    requires TrackingLimitRange().0 <= v <= TrackingLimitRange().1
    ensures var t := SetTrackingLimit(s, v, o).state;
      && TrackingLimit(t) == v && |t.rects| == v && |t.confidence| == v
      && t.bboxes.maximum == v && t.bboxes.current == 0
    ensures SetTrackingLimit(s, v, o).outcome.Done? ==>
      Bound(SetTrackingLimit(s, v, o).state.calls, Temporal) == Some(Flag(v == 1))
  {
    if SetTrackingLimit(s, v, o).outcome.Done? {
      SetTrackingLimitBinds(s, v, o);
    }
  }

  /**
   * There is no upper clamp: a limit of 256 gives buffers of 256 entries but a view
   * whose one-byte maximum is 0, so the graph may report no face at all.
   */
  lemma SetTrackingLimitTruncatesMaximum(s: State, o: LimitOracle)
    ensures var t := SetTrackingLimit(s, 256, o).state;
      TrackingLimit(t) == 256 && t.bboxes.maximum == 0
  {
  }

  /** Setting the limit marks the pipeline dirty even when the limit does not change. */
  lemma SetTrackingLimitAlwaysDirties(s: State, o: LimitOracle)
    requires Valid(s) && !s.dirty
    requires o == LimitOracle(Success, Success, Success)
    ensures SetTrackingLimit(s, TrackingLimit(s), o).state.dirty
    ensures TrackingLimit(SetTrackingLimit(s, TrackingLimit(s), o).state) == TrackingLimit(s)
  {
  }

  // ---------------------------------------------------------------------------
  // resize and process

  /** A second `resize` to the same size does nothing, whatever the first one's outcome. */
  lemma ResizeIdempotent(s: State, width: nat, height: nat, first: Status, second: Status)
    ensures var t := Resize(s, width, height, first).state;
      Resize(t, width, height, second) == Step(Done, t)
  {
  }

  /**
   * After a successful frame, a frame of the same size allocates nothing and does not
   * reload: it only copies, converts and runs.
   */
  lemma SameFrameNoReallocation(s: State, frame: Dims, stream: nat, o1: FrameOracle, o2: FrameOracle)
    requires Valid(s)
    requires Process(s, frame, stream, o1).outcome.Done?
    ensures var t := Process(s, frame, stream, o1).state;
      var u := Process(t, frame, stream, o2).state;
      && |u.calls| >= |t.calls| && u.calls[..|t.calls|] == t.calls
      && u.calls[|t.calls|..] ==
           if o2.transfer.Failure? then [CopyTexture, TransferImage(o2.transfer)]
           else [CopyTexture, TransferImage(Success), RunGraph(false, t.loaded, ConfigOf(t), o2.run)]
  {
    var t := Process(s, frame, stream, o1).state;
    assert Resize(t, frame.width, frame.height, o2.image) == Step(Done, t);
    var u := Process(t, frame, stream, o2).state;
    assert u == Convert(t, o2).state;
  }

  /**
   * After a successful frame, a frame of another size (all vendor calls succeeding)
   * resizes input and source once each, rebinds "Image", reloads the graph with the new
   * image and runs it clean: dirty goes from clean to dirty and back to clean.
   */
  lemma NewFrameSizeReallocatesAndReloads(s: State, frame: Dims, next: Dims, stream: nat, o1: FrameOracle,
                                          dets: seq<Detection>)
    requires Valid(s)
    requires Process(s, frame, stream, o1).outcome.Done?
    requires next != frame
    ensures var t := Process(s, frame, stream, o1).state;
      var o2 := FrameOracle(Success, LoadOracle(Success, Success), Success, Success, dets);
      var r := Process(t, next, stream, o2);
      var loaded := BoundConfig(t.calls).(image := Some(ImageOf(next)));
      var current := ConfigOf(t).(image := Some(ImageOf(next)));
      && !t.dirty
      && Resize(t, next.width, next.height, Success).state.dirty
      && r.outcome.Done? && !r.state.dirty
      && r.state.loaded == Some(loaded)
      && |r.state.calls| >= |t.calls| && r.state.calls[..|t.calls|] == t.calls
      && r.state.calls[|t.calls|..] == NewSizeCalls(frame, next, stream, loaded, current)
  {
    var t := Process(s, frame, stream, o1).state;
    NewSizeFromCleanState(t, frame, next, stream, dets);
  }

  /** The vendor calls of a frame of a new size when every one of them succeeds. */
  function NewSizeCalls(frame: Dims, next: Dims, stream: nat, loaded: Config, current: Config): seq<Call>
  {
    [ Allocate(InputTexture, Some(frame), next), Allocate(SourceImage, Some(frame), next),
      Bind(Image, ImageOf(next), Success), Bind(CudaStream, Stream(stream), Success), LoadGraph(Success),
      CopyTexture, TransferImage(Success), RunGraph(false, Some(loaded), current, Success) ]
  }

  lemma NewSizeFromCleanState(t: State, frame: Dims, next: Dims, stream: nat, dets: seq<Detection>)
    requires Valid(t) && !t.dirty && t.input == Some(frame) && next != frame
    ensures var o2 := FrameOracle(Success, LoadOracle(Success, Success), Success, Success, dets);
      var r := Process(t, next, stream, o2);
      var loaded := BoundConfig(t.calls).(image := Some(ImageOf(next)));
      var current := ConfigOf(t).(image := Some(ImageOf(next)));
      && Resize(t, next.width, next.height, Success).state.dirty
      && r.outcome.Done? && !r.state.dirty
      && r.state.loaded == Some(loaded)
      && |r.state.calls| >= |t.calls| && r.state.calls[..|t.calls|] == t.calls
      && r.state.calls[|t.calls|..] == NewSizeCalls(frame, next, stream, loaded, current)
  {
    var o2 := FrameOracle(Success, LoadOracle(Success, Success), Success, Success, dets);
    var r1 := Resize(t, next.width, next.height, Success);
    var r2 := Load(r1.state, stream, o2.load);
    var loaded := BoundConfig(t.calls).(image := Some(ImageOf(next)));
    var current := ConfigOf(t).(image := Some(ImageOf(next)));
    NewSizeResizeThenLoad(t, frame, next, stream);
    var r3 := Convert(r2.state, o2);
    assert Process(t, next, stream, o2) == r3;
    assert r3.state.calls == r2.state.calls + [CopyTexture, TransferImage(Success), RunGraph(false, Some(loaded), current, Success)];
    assert r3.state.calls == t.calls + NewSizeCalls(frame, next, stream, loaded, current);
  }

  /** On a frame of another size, `resize` reallocates and dirties, and `load` reloads with the new image. */
  lemma NewSizeResizeThenLoad(t: State, frame: Dims, next: Dims, stream: nat)
    requires Valid(t) && !t.dirty && t.input == Some(frame) && next != frame
    ensures var r1 := Resize(t, next.width, next.height, Success);
      var r2 := Load(r1.state, stream, LoadOracle(Success, Success));
      var loaded := BoundConfig(t.calls).(image := Some(ImageOf(next)));
      var current := ConfigOf(t).(image := Some(ImageOf(next)));
      && r1.outcome.Done? && r1.state.dirty && r2.outcome.Done?
      && Valid(r2.state) && !r2.state.dirty && r2.state.loaded == Some(loaded)
      && ConfigOf(r2.state) == current
      && r2.state.calls == t.calls + NewSizeCalls(frame, next, stream, loaded, current)[..5]
  {
    var r1 := Resize(t, next.width, next.height, Success);
    assert r1.outcome.Done? && r1.state.dirty;
    assert r1.state.calls == t.calls + [Allocate(InputTexture, Some(frame), next), Allocate(SourceImage, Some(frame), next),
                                        Bind(Image, ImageOf(next), Success)];
  }

  /**
   * The constructor loads the graph but leaves the pipeline dirty, so the first frame
   * allocates all three images and reloads before it runs.
   */
  lemma FirstFrameAllocatesAndReloads(stream: nat, o: CreateOracle, frame: Dims, f: FrameOracle)
    requires Create(stream, o).outcome.Done?
    requires f.image == Success
    ensures var s := Create(stream, o).state;
      var r := Process(s, frame, stream, f).state;
      |r.calls| >= |s.calls| + 5 && r.calls[..|s.calls| + 5] == s.calls + FirstFrameCalls(frame, stream, f)
  {
    var s := Create(stream, o).state;
    assert Valid(s) && s.input.None? && s.tmp.None?;
    FirstFrameFromUnallocated(s, frame, stream, f);
  }

  /** The calls a first frame makes before it transfers: allocate, bind the image, bind the stream. */
  function FirstFrameCalls(frame: Dims, stream: nat, f: FrameOracle): seq<Call>
  {
    [ Allocate(ScratchImage, None, frame), Allocate(InputTexture, None, frame),
      Allocate(SourceImage, None, frame), Bind(Image, ImageOf(frame), Success),
      Bind(CudaStream, Stream(stream), f.load.stream) ]
  }

  /** On unallocated images, `resize` dirties the pipeline, so `load` follows it. */
  lemma FirstFrameResizeThenLoad(s: State, frame: Dims, stream: nat, f: FrameOracle)
    requires Valid(s) && s.input.None? && s.tmp.None? && f.image == Success
    ensures var r1 := Resize(s, frame.width, frame.height, f.image);
      && r1.outcome.Done? && r1.state.dirty
      && var r2 := Load(r1.state, stream, f.load);
         |r2.state.calls| >= |s.calls| + 5 && r2.state.calls[..|s.calls| + 5] == s.calls + FirstFrameCalls(frame, stream, f)
  {
    var calls := FirstFrameCalls(frame, stream, f);
    var r1 := Resize(s, frame.width, frame.height, f.image);
    assert r1.outcome.Done? && r1.state.dirty && r1.state.calls == s.calls + calls[..4];
  }

  lemma FirstFrameFromUnallocated(s: State, frame: Dims, stream: nat, f: FrameOracle)
    requires Valid(s) && s.input.None? && s.tmp.None? && f.image == Success
    ensures var r := Process(s, frame, stream, f).state;
      |r.calls| >= |s.calls| + 5 && r.calls[..|s.calls| + 5] == s.calls + FirstFrameCalls(frame, stream, f)
  {
    var calls := FirstFrameCalls(frame, stream, f);
    var r1 := Resize(s, frame.width, frame.height, f.image);
    var r2 := Load(r1.state, stream, f.load);
    FirstFrameResizeThenLoad(s, frame, stream, f);
    var r := Process(s, frame, stream, f).state;
    assert |r.calls| >= |r2.state.calls| && r.calls[..|r2.state.calls|] == r2.state.calls by {
      if r2.outcome.Done? {
        assert r == Convert(r2.state, f).state;
      } else {
        assert r == r2.state;
      }
    }
    PrefixTrans(s.calls + calls, r2.state.calls, r.calls);
  }

  // ---------------------------------------------------------------------------
  // count and at

  /**
   * After a successful frame the reported faces read back in order, through `at` as
   * written and through the corrected `at` alike.
   */
  lemma ResultsReadBack(s: State, frame: Dims, stream: nat, o: FrameOracle, i: nat)
    requires Valid(s) && Process(s, frame, stream, o).outcome.Done?
    requires i < Count(Process(s, frame, stream, o).state)
    ensures Count(Process(s, frame, stream, o).state) == Min(|o.detections|, Process(s, frame, stream, o).state.bboxes.maximum)
    ensures At(Process(s, frame, stream, o).state, i) == Ok(o.detections[i])
    ensures AtChecked(Process(s, frame, stream, o).state, i) == Ok(o.detections[i])
  {
  }

  /** With no faces found, every index, 0 included, fails as "empty", never as "out of range". */
  lemma NoFacesIsEmptyNotOutOfRange(s: State, frame: Dims, stream: nat, o: FrameOracle, i: nat)
    requires Valid(s) && Process(s, frame, stream, o).outcome.Done? && o.detections == []
    ensures Count(Process(s, frame, stream, o).state) == 0
    ensures At(Process(s, frame, stream, o).state, i) == Err(NoTrackedFaces)
    ensures AtRect(Process(s, frame, stream, o).state, i) == Err(NoTrackedFaces)
  {
  }

  /**
   * Finding, as written: an index equal to the count passes the range check and
   * returns the entry past the last reported face whenever the buffer is longer.
   */
  lemma AtAcceptsIndexEqualToCount(s: State)
    requires Valid(s) && 0 < Count(s) < TrackingLimit(s)
    ensures At(s, Count(s)) == Ok(Detection(s.rects[Count(s)], s.confidence[Count(s)]))
    ensures AtChecked(s, Count(s)) == Err(IndexTooLarge)
  {
  }

  /**
   * Finding, as written, on a concrete run: with a limit of two and one face found,
   * `at(1)` returns the empty entry left by `resize`, not an error.
   */
  lemma AtOnePastTheEndAfterFrame(s: State, frame: Dims, stream: nat, o: FrameOracle, face: Detection)
    requires Valid(s) && TrackingLimit(s) == 2
    requires o.detections == [face]
    requires Process(s, frame, stream, o).outcome.Done?
    requires s.rects[1] == EmptyRect && s.confidence[1] == 0.0
    ensures var t := Process(s, frame, stream, o).state;
      Count(t) == 1 && At(t, 1) == Ok(Detection(EmptyRect, 0.0)) && AtChecked(t, 1) == Err(IndexTooLarge)
  {
    var t := Process(s, frame, stream, o).state;
    assert t.bboxes.maximum == 2;
  }

  // ---------------------------------------------------------------------------
  // The dirty flag across operations

  /**
   * Finding, as written: when a binding of `set_tracking_limit` fails on a clean
   * pipeline and the limit changes, the buffers have the new length but `dirty` stays
   * false, so the next frame of the same size skips `load` and runs the graph loaded
   * for a confidence array of the old length.
   */
  lemma StaleRunAfterFailedBinding(s: State, v: nat, o: LimitOracle, stream: nat, f: FrameOracle)
    requires Valid(s) && Fresh(s) && !s.dirty && s.input.Some?
    requires AtLeastOne(v) != TrackingLimit(s)
    requires o.boxes == Success && o.confidence.Failure?
    requires f.transfer == Success
    ensures var t := SetTrackingLimit(s, v, o);
      && t.outcome == Thrown(CvException(BoundingBoxesConfidence, o.confidence.code))
      && !t.state.dirty && !Fresh(t.state)
    ensures var u := Process(SetTrackingLimit(s, v, o).state, s.input.value, stream, f).state;
      && !RunsFresh(u.calls)
      && |u.calls| > 0 && u.calls[|u.calls| - 1].RunGraph?
      && !u.calls[|u.calls| - 1].dirty
      && u.calls[|u.calls| - 1].loaded == Some(ConfigOf(s))
      && ConfigOf(s).confidence.value.length == TrackingLimit(s)
      && u.calls[|u.calls| - 1].current.confidence.value.length == AtLeastOne(v)
  {
    var t := SetTrackingLimit(s, v, o).state;
    var frame := s.input.value;
    assert Resize(t, frame.width, frame.height, f.image) == Step(Done, t);
    var u := Process(t, frame, stream, f).state;
    assert u.calls == t.calls + [CopyTexture, TransferImage(Success), RunGraph(false, t.loaded, ConfigOf(t), f.run)];
    var k := |u.calls| - 1;
    assert u.calls[k].RunGraph? && u.calls[k].loaded != Some(u.calls[k].current);
  }

  /**
   * A `set_tracking_limit` whose bindings all succeed dirties the pipeline and binds
   * what the new buffers call for, so a reload loads for them.
   */
  lemma SetTrackingLimitKeepsFresh(s: State, v: nat, o: LimitOracle)
    ensures var r := SetTrackingLimit(s, v, o).state;
      o == LimitOracle(Success, Success, Success) ==>
        && r.dirty
        && (Fresh(s) ==> Fresh(r))
        && (BindingsFollowBuffers(s) ==> BindingsFollowBuffers(r))
  {
    if o == LimitOracle(Success, Success, Success) {
      SetTrackingLimitBinds(s, v, o);
    }
  }

  /**
   * Finding, as written: when the "Image" binding of a frame fails, the source image has
   * already been allocated at the frame's size, so the next frame of that size neither
   * reallocates nor rebinds it. From a pipeline with no images and no image bound, which
   * is what the constructor leaves, that next frame reloads and runs a graph with no
   * image bound at all.
   */
  lemma StaleImageAfterFailedBinding(s: State, frame: Dims, stream: nat, f1: FrameOracle, f2: FrameOracle)
    requires Valid(s) && s.source.None? && Bound(s.calls, Image).None?
    requires f1.image.Failure?
    requires f2.load == LoadOracle(Success, Success) && f2.transfer == Success
    ensures var t := Process(s, frame, stream, f1);
      var u := Process(t.state, frame, stream, f2).state;
      && t.outcome == Thrown(CvException(Image, f1.image.code))
      && t.state.dirty && t.state.source == Some(frame)
      && u.source == Some(frame) && Bound(u.calls, Image).None?
      && u.calls[|u.calls| - 1].RunGraph? && !u.calls[|u.calls| - 1].dirty
      && u.calls[|u.calls| - 1].loaded.value.image.None?
      && u.calls[|u.calls| - 1].current.image == Some(ImageOf(frame))
      && !RunsFresh(u.calls)
  {
    var t := Process(s, frame, stream, f1);
    assert t == ReplaceSource(AllocateInput(s, frame), frame, f1.image);
    var r1 := Resize(t.state, frame.width, frame.height, f2.image);
    assert r1 == Step(Done, t.state);
    var r2 := Load(t.state, stream, f2.load);
    assert r2.outcome.Done? && r2.state.loaded == Some(BoundConfig(t.state.calls));
    var u := Convert(r2.state, f2).state;
    assert Process(t.state, frame, stream, f2).state == u;
    var k := |u.calls| - 1;
    assert u.calls[k] == RunGraph(false, r2.state.loaded, ConfigOf(r2.state), f2.run);
  }

  // ---------------------------------------------------------------------------
  // Sequences of calls

  /** A public call on the pipeline, with the outcomes of its vendor calls. */
  datatype Op =
    | SetLimit(v: nat, limit: LimitOracle)
    | ResizeTo(width: nat, height: nat, image: Status)
    | Reload(stream: nat, load: LoadOracle)
    | ProcessFrame(frame: Dims, stream: nat, oracle: FrameOracle)

  /** Every parameter binding the call makes succeeds; other vendor calls may still fail. */
  predicate BindingsSucceed(op: Op)
  {
    match op
    case SetLimit(_, limit) => limit == LimitOracle(Success, Success, Success)
    case ResizeTo(_, _, image) => image == Success
    case Reload(_, _) => true
    case ProcessFrame(_, _, oracle) => oracle.image == Success
  }

  /**
   * One call as written, whether it returns or throws; the pipeline survives a thrown
   * call. Every call keeps the invariants. A call whose bindings all succeed also keeps
   * the bindings following the buffers and the graph loaded for them.
   */
  function Apply(s: State, op: Op): (r: State)
    requires Valid(s)
    ensures Valid(r)
    ensures Fresh(s) && BindingsFollowBuffers(s) && BindingsSucceed(op) ==> Fresh(r) && BindingsFollowBuffers(r)
  {
    match op
    case SetLimit(v, limit) =>
      SetTrackingLimitKeepsFresh(s, v, limit);
      SetTrackingLimit(s, v, limit).state
    case ResizeTo(width, height, image) =>
      ResizeKeepsFresh(s, width, height, image);
      Resize(s, width, height, image).state
    case Reload(stream, load) => Load(s, stream, load).state
    case ProcessFrame(frame, stream, oracle) => Process(s, frame, stream, oracle).state
  }

  /** Any sequence of calls as written keeps the invariants, and freshness while every binding succeeds. */
  function Replay(s: State, ops: seq<Op>): (r: State)
    requires Valid(s)
    ensures Valid(r)
    ensures Fresh(s) && BindingsFollowBuffers(s) && (forall i :: 0 <= i < |ops| ==> BindingsSucceed(ops[i])) ==>
      Fresh(r) && BindingsFollowBuffers(r)
    decreases |ops|
  {
    if ops == [] then s
    else
      assert forall i :: 0 <= i < |ops| - 1 ==> ops[1..][i] == ops[i + 1];
      Replay(Apply(s, ops[0]), ops[1..])
  }

  /**
   * From a constructed pipeline, as written: the graph only ever runs clean, and as
   * long as no parameter binding fails, it runs loaded for what its buffers and images
   * call for. (The Findings show a failed binding breaking the second.)
   */
  lemma EveryRunCleanAsWritten(stream: nat, o: CreateOracle, ops: seq<Op>)
    requires Create(stream, o).outcome.Done?
    ensures RunsClean(Replay(Create(stream, o).state, ops).calls)
    ensures (forall i :: 0 <= i < |ops| ==> BindingsSucceed(ops[i])) ==>
      RunsFresh(Replay(Create(stream, o).state, ops).calls)
  {
    var s := Create(stream, o).state;
    assert BindingsFollowBuffers(s);
  }
}

=== FILE: face_detection_spec.dfy ===
/**
 * Pure model of the NVIDIA AR face-detection pipeline (`ar::facedetection`).
 *
 * The pipeline object is described by the record `State`; every operation of the
 * class is a function from the old state (and the outcomes of the vendor calls it
 * makes) to its outcome and the new state. The vendor calls themselves (parameter
 * binding, graph load, pixel transfer, inference run) are not visible: each one is
 * represented by a `Status` that the caller of the model supplies, and every call
 * that is made is appended to a log in the state, so that the order of the calls
 * and what was bound can be stated.
 *
 * The class that updates these fields in place is in module FaceDetectionPipeline.
 */
module FaceDetectionSpec {

  /** Both vendor detection features track at most eight faces. */
  const MaxTrackedFaces: nat := 8

  datatype Option<T> = None | Some(value: T)

  /** Result code of a vendor call: success, or an error code. */
  datatype Status = Success | Failure(code: int)

  /** The name carried by a `cv::exception`: the parameter key or the failed operation. */
  datatype Key = CudaStream | BoundingBoxes | BoundingBoxesConfidence | Temporal | Image | LoadStep | RunStep

  /** The exceptions the pipeline throws. */
  datatype Error =
    | CvException(key: Key, code: int)  // vendor call failed
    | TransferFailed                    // pixel conversion failed
    | NoTrackedFaces                    // `at` on an empty result set
    | IndexTooLarge                     // `at` with an index beyond the result count
    | VectorOutOfRange                  // the bounds check of `std::vector::at`

  datatype Outcome = Done | Thrown(error: Error)

  datatype Result<T> = Ok(value: T) | Err(error: Error)

  datatype Rect = Rect(x: real, y: real, width: real, height: real)

  /** A value-initialised `rect_t`, what `std::vector::resize` appends. */
  const EmptyRect := Rect(0.0, 0.0, 0.0, 0.0)

  /** One face the graph reports: its box and its confidence. */
  datatype Detection = Detection(rect: Rect, confidence: real)

  datatype Dims = Dims(width: nat, height: nat)

  /**
   * The value of `bounds_t::rects`: null, or the storage of `_rects`. Resizing a
   * vector may move its storage, so each resize starts a new generation.
   */
  datatype Pointer = Null | RectsData(generation: nat)

  /** `bounds_t`: the view of the box buffer that is shared with the graph. */
  datatype Bounds = Bounds(rects: Pointer, maximum: nat, current: nat)

  /**
   * What a graph is loaded for: whether the address of the view is bound as
   * "BoundingBoxes", and the values bound to "BoundingBoxesConfidence", "Temporal"
   * and "Image". The view is bound by the address of `_bboxes`, which never moves,
   * so only whether it is bound matters; the graph reads the view's fields when it runs.
   * The confidence buffer is bound by the address of its storage, which a resize may
   * move, so its value records the storage generation as well as the length.
   */
  datatype Config = Config(boxes: bool, confidence: Option<Value>, temporal: Option<Value>, image: Option<Value>)

  /** The value given to a graph parameter. */
  datatype Value =
    | BoundsStruct(view: Bounds)   // address of `_bboxes`, with the view it held then
    | FloatArray(generation: nat, length: nat)  // the confidence buffer: its storage and length
    | Flag(on: bool)
    | ImageOf(dims: Dims)          // the source image
    | Stream(handle: nat)          // the CUDA stream

  datatype Resource = InputTexture | SourceImage | ScratchImage

  /** One vendor call, as the log records it. */
  datatype Call =
    | Bind(key: Key, value: Value, status: Status)
      /** `previous` is None for a fresh allocation, the old size for an in-place resize. */
    | Allocate(resource: Resource, previous: Option<Dims>, dims: Dims)
    | LoadGraph(status: Status)
    | CopyTexture
    | TransferImage(status: Status)
      /** The dirty flag, the configuration the graph was loaded for and the one the buffers and images call for. */
    | RunGraph(dirty: bool, loaded: Option<Config>, current: Config, status: Status)

  /** The fields of `ar::facedetection`, plus the graph's loaded configuration and the call log. */
  datatype State = State(
    dirty: bool,
    rects: seq<Rect>,
    confidence: seq<real>,
    generation: nat,
    bboxes: Bounds,
    input: Option<Dims>,
    source: Option<Dims>,
    tmp: Option<Dims>,
    loaded: Option<Config>,
    calls: seq<Call>)

  datatype Step = Step(outcome: Outcome, state: State)

  /** Outcomes of the three parameter bindings of `set_tracking_limit`. */
  datatype LimitOracle = LimitOracle(boxes: Status, confidence: Status, temporal: Status)

  /** Outcomes of the stream binding and the graph load of `load`. */
  datatype LoadOracle = LoadOracle(stream: Status, load: Status)

  /**
   * Outcomes of the vendor calls of one `process`: the "Image" binding of `resize`,
   * those of `load`, the transfer, the run, and the faces the graph finds, ranked.
   */
  datatype FrameOracle = FrameOracle(image: Status, load: LoadOracle, transfer: Status, run: Status, detections: seq<Detection>)

  /** Outcomes of the vendor calls of the constructor. */
  datatype CreateOracle = CreateOracle(stream: Status, limit: LimitOracle, load: Status)

  // ---------------------------------------------------------------------------
  // Helpers over values of the standard library

  function Min(a: nat, b: nat): nat { if a <= b then a else b }

  /** `std::max<size_t>(v, 1)`. */
  function AtLeastOne(v: nat): (r: nat)
    ensures r >= 1 && r >= v
    ensures r == v || r == 1
  {
    if v < 1 then 1 else v
  }

  /** `static_cast<uint8_t>(v)`: keeps the low eight bits. */
  function ToUint8(v: nat): (r: nat)
    ensures r < 256 && r <= v
    ensures v < 256 ==> r == v
    ensures (v - r) % 256 == 0
  {
    v % 256
  }

  /** `std::vector::resize(n)`: keeps a prefix, appends value-initialised elements. */
  function Resized<T>(s: seq<T>, n: nat, fill: T): (r: seq<T>)
    ensures |r| == n
    ensures forall i :: 0 <= i < n && i < |s| ==> r[i] == s[i]
    ensures forall i :: |s| <= i < n ==> r[i] == fill
  {
    if n <= |s| then s[..n] else s + seq(n - |s|, _ => fill)
  }

  // ---------------------------------------------------------------------------
  // The call log

  function Append(s: State, c: Call): State
  {
    s.(calls := s.calls + [c])
  }

  /** The value last bound successfully to `key`, if any. */
  function Bound(calls: seq<Call>, key: Key): Option<Value>
  {
    if |calls| == 0 then None
    else
      var c := calls[|calls| - 1];
      if c.Bind? && c.key == key && c.status == Success then Some(c.value)
      else Bound(calls[..|calls| - 1], key)
  }

  /** A successful binding of `key` is what `Bound` reports next; any other call leaves it. */
  lemma BoundAfter(calls: seq<Call>, c: Call, key: Key)
    ensures Bound(calls + [c], key) ==
      if c.Bind? && c.key == key && c.status == Success then Some(c.value) else Bound(calls, key)
  {
    assert (calls + [c])[..|calls|] == calls;
  }

  /** Every run in the log happened on a clean pipeline. */
  ghost predicate RunsClean(calls: seq<Call>)
  {
    forall i :: 0 <= i < |calls| && calls[i].RunGraph? ==> !calls[i].dirty
  }

  /** Every run in the log happened with the graph loaded for what the buffers and images called for then. */
  ghost predicate RunsFresh(calls: seq<Call>)
  {
    forall i :: 0 <= i < |calls| && calls[i].RunGraph? ==> calls[i].loaded == Some(calls[i].current)
  }

  lemma AppendKeepsRuns(calls: seq<Call>, c: Call)
    ensures RunsClean(calls + [c]) <==> RunsClean(calls) && (c.RunGraph? ==> !c.dirty)
    ensures RunsFresh(calls + [c]) <==> RunsFresh(calls) && (c.RunGraph? ==> c.loaded == Some(c.current))
  {
    var t := calls + [c];
    assert forall i :: 0 <= i < |calls| ==> t[i] == calls[i];
    assert t[|calls|] == c;
  }

  // ---------------------------------------------------------------------------
  // Invariants

  function TrackingLimit(s: State): nat
  {
    |s.rects|
  }

  /**
   * The configuration the buffers and images call for: the view bound, the current
   * confidence storage with the limit's length, "Temporal" exactly for one face, and
   * the source image.
   */
  function ConfigOf(s: State): Config
  {
    Config(true, Some(FloatArray(s.generation, TrackingLimit(s))), Some(Flag(TrackingLimit(s) == 1)),
           if s.source.Some? then Some(ImageOf(s.source.value)) else None)
  }

  /** The configuration the log has bound: what a graph loaded now would run with. */
  function BoundConfig(calls: seq<Call>): Config
  {
    Config(Bound(calls, BoundingBoxes).Some?, Bound(calls, BoundingBoxesConfidence),
           Bound(calls, Temporal), Bound(calls, Image))
  }

  /** Every parameter is bound to the buffer or image it should be. */
  ghost predicate BindingsFollowBuffers(s: State)
  {
    BoundConfig(s.calls) == ConfigOf(s)
  }

  /** A call that binds none of the configured parameters leaves the bound configuration. */
  lemma BoundConfigAfter(calls: seq<Call>, c: Call)
    requires c.Bind? ==> c.key !in {BoundingBoxes, BoundingBoxesConfidence, Temporal, Image}
    ensures BoundConfig(calls + [c]) == BoundConfig(calls)
  {
    BoundAfter(calls, c, BoundingBoxes);
    BoundAfter(calls, c, BoundingBoxesConfidence);
    BoundAfter(calls, c, Temporal);
    BoundAfter(calls, c, Image);
  }

  /**
   * The box and confidence buffers are as long as the limit, the view points at the
   * current storage of `_rects`, its maximum is the limit as a byte, and the graph
   * never reports more faces than that maximum.
   */
  ghost predicate BuffersFollowLimit(s: State)
  {
    && |s.rects| >= 1
    && |s.confidence| == |s.rects|
    && s.bboxes.rects == RectsData(s.generation)
    && s.bboxes.maximum == ToUint8(|s.rects|)
    && s.bboxes.current <= s.bboxes.maximum
  }

  /** Input and source are allocated together with the same size, after the scratch image. */
  ghost predicate ResourcesAgree(s: State)
  {
    s.input == s.source && (s.input.Some? ==> s.tmp.Some?)
  }

  ghost predicate Valid(s: State)
  {
    BuffersFollowLimit(s) && ResourcesAgree(s) && RunsClean(s.calls)
  }

  /**
   * A clean pipeline with its images allocated has its graph loaded for exactly what
   * its buffers and images call for, and so had every run before.
   */
  ghost predicate Fresh(s: State)
  {
    (!s.dirty && s.source.Some? ==> s.loaded == Some(ConfigOf(s))) && RunsFresh(s.calls)
  }

  // ---------------------------------------------------------------------------
  // Operations

  /** `tracking_limit_range()`. */
  function TrackingLimitRange(): (r: (nat, nat))
    ensures r.0 == 1 && r.1 == 8
    ensures forall v :: r.0 <= v <= r.1 ==> AtLeastOne(v) == v && ToUint8(v) == v
  {
    (1, MaxTrackedFaces)
  }

  /**
   * `set_tracking_limit(v)` as written: resize both buffers, repoint the view, bind
   * the three parameters and only then mark the pipeline dirty. A failing binding
   * throws with the buffers and view already changed and `dirty` as it was.
   */
  function SetTrackingLimit(s: State, v: nat, o: LimitOracle): (r: Step)
    ensures BuffersFollowLimit(r.state) && r.state.bboxes.current == 0
    ensures TrackingLimit(r.state) == AtLeastOne(v)
    ensures r.state.bboxes.maximum == ToUint8(AtLeastOne(v))
    ensures r.state.input == s.input && r.state.source == s.source && r.state.tmp == s.tmp
    ensures r.state.loaded == s.loaded
    ensures RunsClean(r.state.calls) == RunsClean(s.calls) && RunsFresh(r.state.calls) == RunsFresh(s.calls)
    ensures r.outcome.Done? <==> o == LimitOracle(Success, Success, Success)
    ensures r.state.dirty == (r.outcome.Done? || s.dirty)
    ensures r.outcome.Thrown? ==>
      && r.outcome.error.CvException?
      && r.outcome.error.key in {BoundingBoxes, BoundingBoxesConfidence, Temporal}
  {
    var n := AtLeastOne(v);
    var s0 := WithLimit(s, n);
    var made := LimitCalls(s0.bboxes, s0.generation, n, o);
    NoRunsKeepsRuns(s0.calls, made);
    var t := s0.(calls := s0.calls + made);
    var outcome := LimitOutcome(o);
    Step(outcome, if outcome.Done? then t.(dirty := true) else t)
  }

  /**
   * The bindings `set_tracking_limit` makes, in order, up to and including the first
   * that fails: the view, the confidence storage of generation `g` with `n` entries,
   * then "Temporal" for one face.
   */
  function LimitCalls(view: Bounds, g: nat, n: nat, o: LimitOracle): (cs: seq<Call>)
    ensures 1 <= |cs| <= 3
    ensures cs[0] == Bind(BoundingBoxes, BoundsStruct(view), o.boxes)
    ensures |cs| >= 2 ==> cs[1] == Bind(BoundingBoxesConfidence, FloatArray(g, n), o.confidence)
    ensures |cs| == 3 ==> cs[2] == Bind(Temporal, Flag(n == 1), o.temporal)
    ensures forall i :: 0 <= i < |cs| - 1 ==> cs[i].status == Success
    ensures |cs| < 3 ==> cs[|cs| - 1].status.Failure?
  {
    var c1 := Bind(BoundingBoxes, BoundsStruct(view), o.boxes);
    var c2 := Bind(BoundingBoxesConfidence, FloatArray(g, n), o.confidence);
    var c3 := Bind(Temporal, Flag(n == 1), o.temporal);
    if o.boxes.Failure? then [c1] else if o.confidence.Failure? then [c1, c2] else [c1, c2, c3]
  }

  /** What `set_tracking_limit` reports: the exception of its first failing binding, if any. */
  function LimitOutcome(o: LimitOracle): (r: Outcome)
    ensures r.Done? <==> o == LimitOracle(Success, Success, Success)
    ensures o.boxes.Failure? ==> r == Thrown(CvException(BoundingBoxes, o.boxes.code))
    ensures o.boxes == Success && o.confidence.Failure? ==>
      r == Thrown(CvException(BoundingBoxesConfidence, o.confidence.code))
    ensures o.boxes == Success && o.confidence == Success && o.temporal.Failure? ==>
      r == Thrown(CvException(Temporal, o.temporal.code))
  {
    if o.boxes.Failure? then Thrown(CvException(BoundingBoxes, o.boxes.code))
    else if o.confidence.Failure? then Thrown(CvException(BoundingBoxesConfidence, o.confidence.code))
    else if o.temporal.Failure? then Thrown(CvException(Temporal, o.temporal.code))
    else Done
  }

  /** Calls that run nothing keep both properties of the runs in the log. */
  lemma NoRunsKeepsRuns(calls: seq<Call>, extra: seq<Call>)
    requires forall i :: 0 <= i < |extra| ==> !extra[i].RunGraph?
    ensures RunsClean(calls + extra) == RunsClean(calls)
    ensures RunsFresh(calls + extra) == RunsFresh(calls)
  {
    var t := calls + extra;
    assert forall i :: 0 <= i < |calls| ==> t[i] == calls[i];
    assert forall i :: |calls| <= i < |t| ==> t[i] == extra[i - |calls|];
  }

  /** Calls that bind no `key` leave what `key` is bound to. */
  lemma {:induction false} BoundSkips(calls: seq<Call>, extra: seq<Call>, key: Key)
    requires forall i :: 0 <= i < |extra| ==> !(extra[i].Bind? && extra[i].key == key)
    ensures Bound(calls + extra, key) == Bound(calls, key)
    decreases |extra|
  {
    if extra == [] {
      assert calls + extra == calls;
    } else {
      var n := |extra| - 1;
      assert calls + extra == (calls + extra[..n]) + [extra[n]];
      assert !(extra[n].Bind? && extra[n].key == key);
      BoundAfter(calls + extra[..n], extra[n], key);
      BoundSkips(calls, extra[..n], key);
    }
  }

  /** When all three succeed, the bindings of `set_tracking_limit` bind the view, `n` confidences and "Temporal". */
  lemma LimitCallsBind(calls: seq<Call>, view: Bounds, g: nat, n: nat, o: LimitOracle)
    requires o == LimitOracle(Success, Success, Success)
    ensures var t := calls + LimitCalls(view, g, n, o);
      && Bound(t, BoundingBoxes) == Some(BoundsStruct(view))
      && Bound(t, BoundingBoxesConfidence) == Some(FloatArray(g, n))
      && Bound(t, Temporal) == Some(Flag(n == 1))
  {
    var c1 := Bind(BoundingBoxes, BoundsStruct(view), Success);
    var c2 := Bind(BoundingBoxesConfidence, FloatArray(g, n), Success);
    var c3 := Bind(Temporal, Flag(n == 1), Success);
    assert calls + LimitCalls(view, g, n, o) == calls + [c1] + [c2] + [c3];
    BoundAfter(calls + [c1] + [c2], c3, BoundingBoxes);
    BoundAfter(calls + [c1], c2, BoundingBoxes);
    BoundAfter(calls, c1, BoundingBoxes);
    BoundAfter(calls + [c1] + [c2], c3, BoundingBoxesConfidence);
    BoundAfter(calls + [c1], c2, BoundingBoxesConfidence);
    BoundAfter(calls + [c1] + [c2], c3, Temporal);
  }

  /** A successful `set_tracking_limit` leaves all three parameters bound to the new buffers. */
  lemma SetTrackingLimitBinds(s: State, v: nat, o: LimitOracle)
    requires o == LimitOracle(Success, Success, Success)
    ensures var r := SetTrackingLimit(s, v, o).state;
      && Bound(r.calls, BoundingBoxes) == Some(BoundsStruct(r.bboxes))
      && Bound(r.calls, BoundingBoxesConfidence) == Some(FloatArray(r.generation, AtLeastOne(v)))
      && Bound(r.calls, Temporal) == Some(Flag(AtLeastOne(v) == 1))
    ensures Bound(s.calls, Image) == ConfigOf(s).image ==> BindingsFollowBuffers(SetTrackingLimit(s, v, o).state)
  {
    LimitKeepsOtherBindings(s, v, o, Image);
    var n := AtLeastOne(v);
    var s0 := WithLimit(s, n);
    LimitCallsBind(s0.calls, s0.bboxes, s0.generation, n, o);
  }

  /** The buffers resized to `n` entries and the view re-pointed at the moved box storage. */
  function WithLimit(s: State, n: nat): (r: State)
    ensures r == s.(rects := r.rects, confidence := r.confidence, generation := r.generation, bboxes := r.bboxes)
    ensures |r.rects| == n && |r.confidence| == n && r.generation == s.generation + 1
    ensures r.bboxes == Bounds(RectsData(r.generation), ToUint8(n), 0)
    ensures n >= 1 ==> BuffersFollowLimit(r)
  {
    var g := s.generation + 1;
    s.(rects := Resized(s.rects, n, EmptyRect), confidence := Resized(s.confidence, n, 0.0),
       generation := g, bboxes := Bounds(RectsData(g), ToUint8(n), 0))
  }

  /**
   * `resize(width, height)`: allocate the scratch image once; (re)allocate the input
   * texture and the source image when absent or of another size, marking the pipeline
   * dirty, and rebind "Image" whenever the source image was (re)allocated.
   */
  function Resize(s: State, width: nat, height: nat, image: Status): (r: Step)
    ensures r.state.input == Some(Dims(width, height)) && r.state.source == Some(Dims(width, height))
    ensures r.state.tmp == if s.tmp.None? then Some(Dims(width, height)) else s.tmp
    ensures r.state.rects == s.rects && r.state.confidence == s.confidence
    ensures r.state.generation == s.generation && r.state.bboxes == s.bboxes && r.state.loaded == s.loaded
    ensures RunsClean(r.state.calls) == RunsClean(s.calls) && RunsFresh(r.state.calls) == RunsFresh(s.calls)
    ensures r.outcome.Thrown? <==> s.source != Some(Dims(width, height)) && image.Failure?
    ensures r.outcome.Thrown? ==> r.outcome.error == CvException(Image, image.code)
    ensures r.state.dirty ==
      (s.dirty || s.input != Some(Dims(width, height)) || (s.source != Some(Dims(width, height)) && image == Success))
    ensures Bound(r.state.calls, Image) ==
      if s.source != Some(Dims(width, height)) && image == Success then Some(ImageOf(Dims(width, height)))
      else Bound(s.calls, Image)
    ensures BoundConfig(r.state.calls) == BoundConfig(s.calls).(image := Bound(r.state.calls, Image))
    ensures s.tmp.Some? && s.input == Some(Dims(width, height)) && s.source == Some(Dims(width, height)) ==>
      r == Step(Done, s)
  {
    var d := Dims(width, height);
    var s2 := AllocateInput(s, d);
    if s2.source == Some(d) then Step(Done, s2) else ReplaceSource(s2, d, image)
  }

  /** The first two steps of `resize`: the scratch image once, then the input texture when its size differs. */
  function AllocateInput(s: State, d: Dims): (r: State)
    ensures r == s.(tmp := r.tmp, input := r.input, dirty := r.dirty, calls := r.calls)
    ensures r.tmp == (if s.tmp.None? then Some(d) else s.tmp) && r.input == Some(d)
    ensures r.dirty == (s.dirty || s.input != Some(d))
    ensures RunsClean(r.calls) == RunsClean(s.calls) && RunsFresh(r.calls) == RunsFresh(s.calls)
    ensures BoundConfig(r.calls) == BoundConfig(s.calls)
    ensures |r.calls| >= |s.calls| && r.calls[..|s.calls|] == s.calls
    ensures s.tmp.Some? && s.input == Some(d) ==> r == s
  {
    var c0 := Allocate(ScratchImage, None, d);
    AppendKeepsRuns(s.calls, c0);
    BoundConfigAfter(s.calls, c0);
    var s1 := if s.tmp.None? then Append(s.(tmp := Some(d)), c0) else s;
    var c1 := Allocate(InputTexture, s1.input, d);
    AppendKeepsRuns(s1.calls, c1);
    BoundConfigAfter(s1.calls, c1);
    if s1.input != Some(d) then Append(s1.(input := Some(d), dirty := true), c1) else s1
  }

  /** The last step of `resize`: (re)allocate the source image, rebind "Image", and dirty on success. */
  function ReplaceSource(s: State, d: Dims, image: Status): (r: Step)
    ensures r.state == s.(source := Some(d), dirty := r.state.dirty, calls := r.state.calls)
    ensures r.state.calls == s.calls + [Allocate(SourceImage, s.source, d), Bind(Image, ImageOf(d), image)]
    ensures r.outcome == if image.Failure? then Thrown(CvException(Image, image.code)) else Done
    ensures r.state.dirty == (s.dirty || image == Success)
    ensures RunsClean(r.state.calls) == RunsClean(s.calls) && RunsFresh(r.state.calls) == RunsFresh(s.calls)
    ensures Bound(r.state.calls, Image) == if image == Success then Some(ImageOf(d)) else Bound(s.calls, Image)
    ensures BoundConfig(r.state.calls) == BoundConfig(s.calls).(image := Bound(r.state.calls, Image))
  {
    var c2 := Allocate(SourceImage, s.source, d);
    var c3 := Bind(Image, ImageOf(d), image);
    AppendKeepsRuns(s.calls, c2);
    AppendKeepsRuns(s.calls + [c2], c3);
    BoundConfigAfter(s.calls, c2);
    BoundAfter(s.calls + [c2], c3, BoundingBoxes);
    BoundAfter(s.calls + [c2], c3, BoundingBoxesConfidence);
    BoundAfter(s.calls + [c2], c3, Temporal);
    BoundAfter(s.calls + [c2], c3, Image);
    assert s.calls + [c2] + [c3] == s.calls + [c2, c3];
    var s3 := s.(source := Some(d), calls := s.calls + [c2, c3]);
    if image.Failure? then Step(Thrown(CvException(Image, image.code)), s3)
    else Step(Done, s3.(dirty := true))
  }

  /**
   * `resize` keeps a valid pipeline fresh: whenever it reallocates, it dirties. It keeps
   * the bindings following the buffers unless the "Image" binding of a new source fails.
   */
  lemma ResizeKeepsFresh(s: State, width: nat, height: nat, image: Status)
    requires Valid(s)
    ensures Fresh(s) ==> Fresh(Resize(s, width, height, image).state)
    ensures BindingsFollowBuffers(s) && (s.source == Some(Dims(width, height)) || image == Success) ==>
      BindingsFollowBuffers(Resize(s, width, height, image).state)
  {
  }

  /**
   * `load()`: rebind the CUDA stream, load the graph, and only when both succeed
   * record the configuration it was loaded for and clear `dirty`. Nothing but the
   * stream is rebound, so the graph is loaded for whatever the log has bound.
   */
  function Load(s: State, stream: nat, o: LoadOracle): (r: Step)
    ensures r.state.rects == s.rects && r.state.confidence == s.confidence && r.state.generation == s.generation
    ensures r.state.bboxes == s.bboxes && r.state.input == s.input && r.state.source == s.source && r.state.tmp == s.tmp
    ensures RunsClean(r.state.calls) == RunsClean(s.calls) && RunsFresh(r.state.calls) == RunsFresh(s.calls)
    ensures r.outcome.Done? <==> o.stream == Success && o.load == Success
    ensures BoundConfig(r.state.calls) == BoundConfig(s.calls)
    ensures r.outcome.Done? ==>
      && !r.state.dirty
      && r.state.loaded == Some(BoundConfig(s.calls))
      && Bound(r.state.calls, CudaStream) == Some(Stream(stream))
    ensures r.outcome.Done? && s.source.Some? ==>
      (Fresh(r.state) <==> RunsFresh(s.calls) && BindingsFollowBuffers(s))
    ensures r.outcome.Thrown? ==>
      && r.state.dirty == s.dirty && r.state.loaded == s.loaded
      && r.outcome.error == (if o.stream.Failure? then CvException(CudaStream, o.stream.code)
                             else CvException(LoadStep, o.load.code))
  {
    var c1 := Bind(CudaStream, Stream(stream), o.stream);
    var c2 := LoadGraph(o.load);
    AppendKeepsRuns(s.calls, c1);
    AppendKeepsRuns(s.calls + [c1], c2);
    BoundAfter(s.calls + [c1], c2, CudaStream);
    BoundConfigAfter(s.calls, c1);
    BoundConfigAfter(s.calls + [c1], c2);
    var s1 := Append(s, c1);
    if o.stream.Failure? then Step(Thrown(CvException(CudaStream, o.stream.code)), s1)
    else
      var s2 := Append(s1, c2);
      if o.load.Failure? then Step(Thrown(CvException(LoadStep, o.load.code)), s2)
      else Step(Done, s2.(dirty := false, loaded := Some(BoundConfig(s2.calls))))
  }

  /** The boxes of the first `k` detections. */
  function RectsOf(dets: seq<Detection>): (r: seq<Rect>)
    ensures |r| == |dets| && forall i :: 0 <= i < |dets| ==> r[i] == dets[i].rect
  {
    seq(|dets|, i requires 0 <= i < |dets| => dets[i].rect)
  }

  function ConfidencesOf(dets: seq<Detection>): (r: seq<real>)
    ensures |r| == |dets| && forall i :: 0 <= i < |dets| ==> r[i] == dets[i].confidence
  {
    seq(|dets|, i requires 0 <= i < |dets| => dets[i].confidence)
  }

  /**
   * What a successful `run` leaves behind: the graph writes the best `maximum` of the
   * faces it found through the view into `_rects` and into the confidence buffer, and
   * sets the view's `current` to their number.
   */
  function Publish(s: State, dets: seq<Detection>): (r: State)
    requires BuffersFollowLimit(s)
    ensures |r.rects| == |s.rects| && |r.confidence| == |s.confidence|
    ensures BuffersFollowLimit(r)
    ensures r.bboxes.current == Min(|dets|, s.bboxes.maximum)
    ensures forall i :: 0 <= i < r.bboxes.current ==> r.rects[i] == dets[i].rect && r.confidence[i] == dets[i].confidence
    ensures forall i :: r.bboxes.current <= i < |s.rects| ==> r.rects[i] == s.rects[i] && r.confidence[i] == s.confidence[i]
    ensures r == s.(rects := r.rects, confidence := r.confidence, bboxes := s.bboxes.(current := r.bboxes.current))
  {
    var k := Min(|dets|, s.bboxes.maximum);
    s.(rects := RectsOf(dets[..k]) + s.rects[k..],
       confidence := ConfidencesOf(dets[..k]) + s.confidence[k..],
       bboxes := s.bboxes.(current := k))
  }

  /**
   * The part of `process` after the reload: copy the frame into the input texture,
   * convert it into the source image, run the graph. Reached only on a clean pipeline.
   */
  function Convert(s: State, o: FrameOracle): (r: Step)
    requires Valid(s) && !s.dirty
    ensures Valid(r.state)
    ensures Fresh(s) && s.source.Some? ==> Fresh(r.state)
    ensures BoundConfig(r.state.calls) == BoundConfig(s.calls)
    ensures ConfigOf(r.state) == ConfigOf(s) && r.state.dirty == s.dirty && r.state.loaded == s.loaded
    ensures r.state.source == s.source && r.state.tmp == s.tmp
    ensures |r.state.calls| > |s.calls| && r.state.calls[..|s.calls|] == s.calls
    ensures r.outcome.Done? <==> o.transfer == Success && o.run == Success
    ensures r.outcome.Done? ==>
      && r.state.calls[|r.state.calls| - 1] == RunGraph(false, s.loaded, ConfigOf(s), Success)
      && r.state.bboxes.current == Min(|o.detections|, s.bboxes.maximum)
      && (forall i :: 0 <= i < r.state.bboxes.current ==>
            r.state.rects[i] == o.detections[i].rect && r.state.confidence[i] == o.detections[i].confidence)
    ensures r.outcome.Thrown? ==> r.state == s.(calls := r.state.calls)
    ensures r.outcome == Thrown(TransferFailed) <==> o.transfer.Failure?
    ensures r.outcome == Thrown(TransferFailed) ==>
      r.state.calls == s.calls + [CopyTexture, TransferImage(o.transfer)]
    ensures o.run.Failure? && r.outcome.Thrown? && r.outcome.error != TransferFailed ==>
      r.outcome.error == CvException(RunStep, o.run.code)
    ensures o.transfer == Success ==>
      r.state.calls == s.calls + [CopyTexture, TransferImage(Success), RunGraph(false, s.loaded, ConfigOf(s), o.run)]
  {
    var t := TransferImage(o.transfer);
    var run := RunGraph(s.dirty, s.loaded, ConfigOf(s), o.run);
    AppendKeepsRuns(s.calls, CopyTexture);
    AppendKeepsRuns(s.calls + [CopyTexture], t);
    AppendKeepsRuns(s.calls + [CopyTexture, t], run);
    BoundConfigAfter(s.calls, CopyTexture);
    BoundConfigAfter(s.calls + [CopyTexture], t);
    BoundConfigAfter(s.calls + [CopyTexture, t], run);
    assert s.calls + [CopyTexture] + [t] == s.calls + [CopyTexture, t];
    assert s.calls + [CopyTexture, t] + [run] == s.calls + [CopyTexture, t, run];
    var s1 := Append(Append(s, CopyTexture), t);
    if o.transfer.Failure? then
      Step(Thrown(TransferFailed), s1)
    else
      var s2 := Append(s1, run);
      if o.run.Failure? then Step(Thrown(CvException(RunStep, o.run.code)), s2)
      else Step(Done, Publish(s2, o.detections))
  }

  /**
   * `process(frame)`: resize, reload when dirty, then copy, convert and run.
   * Each failure aborts the call with the state reached so far.
   */
  function Process(s: State, frame: Dims, stream: nat, o: FrameOracle): (r: Step)
    requires Valid(s)
    ensures Valid(r.state)
    ensures Fresh(s) && BindingsFollowBuffers(s) && (s.source == Some(frame) || o.image == Success) ==>
      Fresh(r.state) && BindingsFollowBuffers(r.state)
    ensures TrackingLimit(r.state) == TrackingLimit(s)
    ensures r.state.input == Some(frame)
    ensures |r.state.calls| > |s.calls| && r.state.calls[..|s.calls|] == s.calls
    ensures r.outcome.Done? <==>
      && (s.source == Some(frame) || o.image == Success)
      && (Resize(s, frame.width, frame.height, o.image).state.dirty ==> o.load == LoadOracle(Success, Success))
      && o.transfer == Success && o.run == Success
    ensures r.outcome.Done? ==> !r.state.dirty
  {
    var r1 := Resize(s, frame.width, frame.height, o.image);
    PrefixAfterResize(s, frame.width, frame.height, o.image);
    if r1.outcome.Thrown? then r1
    else
      var r2 := ReloadIfDirty(r1.state, stream, o.load);
      if r2.outcome.Thrown? then r2
      else
        var r3 := Convert(r2.state, o);
        PrefixTrans(s.calls, r2.state.calls, r3.state.calls);
        r3
  }

  /**
   * What a frame leaves behind: a successful frame ends with a run on a clean pipeline
   * and publishes the detections the view has room for; a failed transfer is the last
   * call, and a failed run was still made on a clean pipeline.
   */
  lemma ProcessReports(s: State, frame: Dims, stream: nat, o: FrameOracle)
    requires Valid(s)
    ensures var r := Process(s, frame, stream, o);
      && (r.outcome.Done? ==>
           && r.state.calls[|r.state.calls| - 1] == RunGraph(false, r.state.loaded, ConfigOf(r.state), Success)
           && r.state.bboxes.current == Min(|o.detections|, r.state.bboxes.maximum)
           && (forall i :: 0 <= i < r.state.bboxes.current ==>
                 r.state.rects[i] == o.detections[i].rect && r.state.confidence[i] == o.detections[i].confidence))
      && (r.outcome == Thrown(TransferFailed) ==>
           r.state.calls[|r.state.calls| - 1] == TransferImage(o.transfer))
      && (o.run.Failure? && r.outcome == Thrown(CvException(RunStep, o.run.code)) ==>
           r.state.calls[|r.state.calls| - 1].RunGraph? && !r.state.calls[|r.state.calls| - 1].dirty)
  {
    var r1 := Resize(s, frame.width, frame.height, o.image);
    if r1.outcome.Done? {
      var r2 := ReloadIfDirty(r1.state, stream, o.load);
      if r2.outcome.Done? {
        assert Process(s, frame, stream, o) == Convert(r2.state, o);
      }
    }
  }

  /** The middle of `process`: reload only when dirty. */
  function ReloadIfDirty(s: State, stream: nat, o: LoadOracle): (r: Step)
    ensures Valid(s) ==> Valid(r.state)
    ensures Fresh(s) && BindingsFollowBuffers(s) ==> Fresh(r.state)
    ensures BoundConfig(r.state.calls) == BoundConfig(s.calls)
    ensures ConfigOf(r.state) == ConfigOf(s) && r.state.source == s.source
    ensures r.state.bboxes == s.bboxes
    ensures |r.state.calls| >= |s.calls| && r.state.calls[..|s.calls|] == s.calls
    ensures r.outcome.Done? <==> !s.dirty || o == LoadOracle(Success, Success)
    ensures r.outcome.Done? ==> !r.state.dirty && (s.dirty ==> r.state.loaded == Some(BoundConfig(s.calls)))
    ensures r.outcome.Thrown? ==> |r.state.calls| > |s.calls|
    ensures !s.dirty ==> r == Step(Done, s)
  {
    if s.dirty then
      PrefixAfterLoad(s, stream, o);
      Load(s, stream, o)
    else Step(Done, s)
  }

  lemma PrefixAfterResize(s: State, width: nat, height: nat, image: Status)
    ensures var t := Resize(s, width, height, image).state;
      |t.calls| >= |s.calls| && t.calls[..|s.calls|] == s.calls
    ensures Resize(s, width, height, image).outcome.Thrown? ==>
      |Resize(s, width, height, image).state.calls| > |s.calls|
  {
  }

  lemma PrefixAfterLoad(s: State, stream: nat, o: LoadOracle)
    ensures var t := Load(s, stream, o).state;
      |t.calls| > |s.calls| && t.calls[..|s.calls|] == s.calls
  {
  }

  lemma PrefixTrans(a: seq<Call>, b: seq<Call>, c: seq<Call>)
    requires |a| <= |b| <= |c| && b[..|a|] == a && c[..|b|] == b
    ensures c[..|a|] == a
  {
    assert c[..|a|] == c[..|b|][..|a|];
  }

  /** `count()`: the number of faces the last run reported. */
  function Count(s: State): (r: nat)
    ensures BuffersFollowLimit(s) ==> r <= s.bboxes.maximum && r <= TrackingLimit(s)
  {
    s.bboxes.current
  }

  /**
   * `at(index, confidence)` as written: "no tracked faces" when nothing was found,
   * checked before anything else; "index too large" only when `index > current`;
   * otherwise whatever the buffers hold at `index`, bounded by `std::vector::at`.
   */
  function At(s: State, index: nat): (r: Result<Detection>)
    ensures s.bboxes.current == 0 ==> r == Err(NoTrackedFaces)
    ensures s.bboxes.current > 0 && index > s.bboxes.current ==> r == Err(IndexTooLarge)
    ensures r.Ok? <==> 0 < s.bboxes.current && index <= s.bboxes.current && index < |s.rects| && index < |s.confidence|
    ensures r.Ok? ==> r.value == Detection(s.rects[index], s.confidence[index])
    ensures r.Err? && 0 < s.bboxes.current && index <= s.bboxes.current ==> r.error == VectorOutOfRange
  {
    if s.bboxes.current == 0 then Err(NoTrackedFaces)
    else if index > s.bboxes.current then Err(IndexTooLarge)
    else if index >= |s.rects| then Err(VectorOutOfRange)
    else if index >= |s.confidence| then Err(VectorOutOfRange)
    else Ok(Detection(s.rects[index], s.confidence[index]))
  }

  /** `at(index)`: the same lookup, without the confidence. */
  function AtRect(s: State, index: nat): (r: Result<Rect>)
    ensures r.Ok? <==> At(s, index).Ok?
    ensures r.Ok? ==> r.value == s.rects[index]
    ensures r.Err? ==> r.error == At(s, index).error
  {
    match At(s, index)
    case Ok(d) => Ok(d.rect)
    case Err(e) => Err(e)
  }

  /**
   * `at` as it is evidently meant: an index equal to the count is out of range too.
   * Succeeds exactly for the indices of the faces the last run reported.
   */
  function AtChecked(s: State, index: nat): (r: Result<Detection>)
    requires BuffersFollowLimit(s)
    ensures s.bboxes.current == 0 ==> r == Err(NoTrackedFaces)
    ensures r.Ok? <==> index < Count(s)
    ensures r.Err? && s.bboxes.current > 0 ==> r.error == IndexTooLarge
    ensures r.Ok? ==> r.value == Detection(s.rects[index], s.confidence[index])
  {
    if s.bboxes.current == 0 then Err(NoTrackedFaces)
    else if index >= s.bboxes.current then Err(IndexTooLarge)
    else Ok(Detection(s.rects[index], s.confidence[index]))
  }

  /** The state of a pipeline whose members have just been initialised. */
  function Initial(): State
  {
    State(true, [], [], 0, Bounds(Null, 0, 0), None, None, None, None, [])
  }

  /**
   * The constructor: bind the CUDA stream, size the buffers for eight faces, set the
   * limit to one, and load the graph directly, which leaves the pipeline dirty.
   */
  function Create(stream: nat, o: CreateOracle): (r: Step)
    ensures r.outcome.Done? <==>
      o.stream == Success && o.limit == LimitOracle(Success, Success, Success) && o.load == Success
    ensures r.outcome.Done? ==>
      && Valid(r.state) && Fresh(r.state)
      && r.state.dirty
      && TrackingLimit(r.state) == 1 && r.state.bboxes.maximum == 1 && r.state.bboxes.current == 0
      && r.state.loaded == Some(Config(true, Some(FloatArray(r.state.generation, 1)), Some(Flag(true)), None))
      && BindingsFollowBuffers(r.state)
      && r.state.input.None? && r.state.tmp.None?
      && Bound(r.state.calls, Temporal) == Some(Flag(true))
      && Bound(r.state.calls, CudaStream) == Some(Stream(stream))
  {
    var c0 := Bind(CudaStream, Stream(stream), o.stream);
    var s0 := Append(Initial(), c0);
    assert RunsClean(s0.calls) && RunsFresh(s0.calls);
    BoundAfter([], c0, CudaStream);
    BoundAfter([], c0, Image);
    if o.stream.Failure? then Step(Thrown(CvException(CudaStream, o.stream.code)), s0)
    else Configure(s0, o)
  }

  /** The constructor's second step: `_rects.resize(8)` and `_rects_confidence.resize(8)`. */
  function SizedForMaxFaces(s: State): State
  {
    s.(rects := Resized(s.rects, MaxTrackedFaces, EmptyRect),
       confidence := Resized(s.confidence, MaxTrackedFaces, 0.0),
       generation := s.generation + 1)
  }

  /** The constructor once the stream is bound: size the buffers, limit to one face, load. */
  function Configure(s: State, o: CreateOracle): (r: Step)
    ensures r.outcome.Done? <==> o.limit == LimitOracle(Success, Success, Success) && o.load == Success
    ensures r.outcome.Done? ==>
      && BuffersFollowLimit(r.state) && r.state.dirty
      && TrackingLimit(r.state) == 1 && r.state.bboxes.maximum == 1 && r.state.bboxes.current == 0
      && r.state.loaded == Some(Config(true, Some(FloatArray(r.state.generation, 1)), Some(Flag(true)), Bound(s.calls, Image)))
      && r.state.loaded == Some(BoundConfig(r.state.calls))
      && r.state.input == s.input && r.state.source == s.source && r.state.tmp == s.tmp
      && RunsClean(r.state.calls) == RunsClean(s.calls) && RunsFresh(r.state.calls) == RunsFresh(s.calls)
      && Bound(r.state.calls, Temporal) == Some(Flag(true))
      && Bound(r.state.calls, CudaStream) == Bound(s.calls, CudaStream)
  {
    var s1 := SizedForMaxFaces(s);
    var r2 := SetTrackingLimit(s1, 1, o.limit);
    if r2.outcome.Thrown? then r2
    else
      var c3 := LoadGraph(o.load);
      AppendKeepsRuns(r2.state.calls, c3);
      BoundAfter(r2.state.calls, c3, Temporal);
      BoundAfter(r2.state.calls, c3, CudaStream);
      BoundConfigAfter(r2.state.calls, c3);
      SetTrackingLimitBinds(s1, 1, o.limit);
      LimitKeepsOtherBindings(s1, 1, o.limit, CudaStream);
      LimitKeepsOtherBindings(s1, 1, o.limit, Image);
      var s3 := Append(r2.state, c3);
      if o.load.Failure? then Step(Thrown(CvException(LoadStep, o.load.code)), s3)
      else Step(Done, s3.(loaded := Some(BoundConfig(s3.calls))))
  }

  /**
   * `set_tracking_limit` binds neither the stream nor the image: what they were bound
   * to before it survives.
   */
  lemma LimitKeepsOtherBindings(s: State, v: nat, o: LimitOracle, key: Key)
    requires key !in {BoundingBoxes, BoundingBoxesConfidence, Temporal}
    ensures Bound(SetTrackingLimit(s, v, o).state.calls, key) == Bound(s.calls, key)
  {
    var n := AtLeastOne(v);
    var s0 := WithLimit(s, n);
    BoundSkips(s0.calls, LimitCalls(s0.bboxes, s0.generation, n, o), key);
  }
}

=== FILE: weak_source.dfy ===
/**
 * `streamfx::obs::weak_source`: a wrapper that owns at most one counted weak reference
 * to a host source. The host keeps the weak reference counts; the wrapper's
 * constructors, assignments, `reset` and destructor call `addref` and `release`
 * on it. The accounting proved here is that the references owned by wrappers are
 * exactly the non-null handles the wrappers hold, one per wrapper, and that every
 * operation changes that multiset by exactly what it releases and acquires.
 */
module ObsWeakSource {

  /** An `obs_weak_source_t*`; 0 is the null pointer. Pointers are taken as flat addresses, ordered by `<` on nat. */
  type Handle = nat
  /** An `obs_source_t*`; 0 is the null pointer. */
  type SourceId = nat

  const Null: nat := 0

  datatype HostCall = AddRef(h: Handle) | Release(h: Handle) | GetWeakSource(s: SourceId)

  /** `std::invalid_argument`, naming the parameter its message complains about. */
  datatype Error = InvalidArgument(parameter: string)

  datatype Result<T> = Ok(value: T) | Err(error: Error)

  /** The reference a wrapper holding `h` owns: none for null, one otherwise. */
  function Own(h: Handle): (m: multiset<Handle>)
    ensures Null !in m
    ensures h != Null ==> m[h] == 1
  {
    if h == Null then multiset{} else multiset{h}
  }

  /** The references owned by a collection of wrappers holding `ws`. */
  function Owned(ws: seq<Handle>): (m: multiset<Handle>)
    ensures Null !in m
  {
    if ws == [] then multiset{} else Owned(ws[..|ws| - 1]) + Own(ws[|ws| - 1])
  }

  /** Every wrapper holding a non-null handle owns exactly one reference to it. */
  lemma {:induction false} OwnedCountsHolders(ws: seq<Handle>, h: Handle)
    requires h != Null
    ensures Owned(ws)[h] == multiset(ws)[h]
  {
    if ws != [] {
      var n := |ws| - 1;
      OwnedCountsHolders(ws[..n], h);
      assert ws == ws[..n] + [ws[n]];
      assert multiset(ws) == multiset(ws[..n]) + multiset{ws[n]};
    }
  }

  /** Replacing what one wrapper holds swaps its reference for the new one. */
  lemma {:induction false} OwnedUpdate(ws: seq<Handle>, i: nat, h: Handle)
    requires i < |ws|
    ensures Owned(ws[i := h]) + Own(ws[i]) == Owned(ws) + Own(h)
  {
    var n := |ws| - 1;
    var vs := ws[i := h];
    assert Owned(ws) == Owned(ws[..n]) + Own(ws[n]);
    assert Owned(vs) == Owned(vs[..n]) + Own(vs[n]);
    if i == n {
      assert vs[..n] == ws[..n];
    } else {
      assert vs[..n] == ws[..n][i := h];
      assert ws[..n][i] == ws[i];
      OwnedUpdate(ws[..n], i, h);
      calc {
        Owned(vs) + Own(ws[i]);
        Owned(ws[..n][i := h]) + Own(ws[n]) + Own(ws[..n][i]);
        Owned(ws[..n][i := h]) + Own(ws[..n][i]) + Own(ws[n]);
        Owned(ws[..n]) + Own(h) + Own(ws[n]);
        Owned(ws) + Own(h);
      }
    }
  }

  /** Moving from wrapper `j` into wrapper `i` only drops what `i` held before. */
  lemma MoveKeepsOwned(ws: seq<Handle>, i: nat, j: nat)
    requires i < |ws| && j < |ws| && i != j
    ensures Owned(ws[i := ws[j]][j := Null]) + Own(ws[i]) == Owned(ws)
  {
    var moved := ws[i := ws[j]];
    assert Owned(moved) + Own(ws[i]) == Owned(ws) + Own(ws[j]) by {
      OwnedUpdate(ws, i, ws[j]);
    }
    assert Owned(moved[j := Null]) + Own(ws[j]) == Owned(moved) by {
      OwnedUpdate(moved, j, Null);
      assert moved[j] == ws[j];
      assert Own(Null) == multiset{};
    }
    Rearrange(Owned(moved[j := Null]), Owned(moved), Owned(ws), Own(ws[i]), Own(ws[j]));
  }

  lemma Rearrange(e: multiset<Handle>, m: multiset<Handle>, o: multiset<Handle>, a: multiset<Handle>, b: multiset<Handle>)
    requires m + a == o + b && e + b == m
    ensures e + a == o
  {
    assert forall x :: (e + a)[x] == (m + a)[x] - b[x];
  }

  /** Copying wrapper `j` into wrapper `i` drops what `i` held and adds one reference to `ws[j]`. */
  lemma CopyAddsOne(ws: seq<Handle>, i: nat, j: nat)
    requires i < |ws| && j < |ws|
    ensures Owned(ws[i := ws[j]]) + Own(ws[i]) == Owned(ws) + Own(ws[j])
  {
    OwnedUpdate(ws, i, ws[j]);
  }

  /** A new wrapper holding `h` adds exactly the reference it owns. */
  lemma {:induction false} OwnedAppend(ws: seq<Handle>, h: Handle)
    ensures Owned(ws + [h]) == Owned(ws) + Own(h)
  {
    assert (ws + [h])[..|ws|] == ws;
  }

  /** The non-null handles of `ws`, with multiplicity: the closed form the host's invariant uses. */
  function Holders(ws: seq<Handle>): multiset<Handle>
  {
    multiset(ws)[Null := 0]
  }

  /** Summing one reference per wrapper gives exactly the non-null handles the wrappers hold. */
  lemma {:induction false} OwnedIsHolders(ws: seq<Handle>)
    ensures Owned(ws) == Holders(ws)
  {
    forall h | h != Null
      ensures Owned(ws)[h] == Holders(ws)[h]
    {
      OwnedCountsHolders(ws, h);
    }
    assert Null !in Owned(ws) && Null !in Holders(ws);
  }

  /**
   * Emptying wrapper `i` gives back the reference it owned, if any: what the host
   * counts after releasing it is again what the wrappers hold.
   */
  lemma ClearSlot(held: multiset<Handle>, ws: seq<Handle>, i: nat)
    requires i < |ws| && held == Holders(ws)
    ensures ws[i] != Null ==> ws[i] in held && Holders(ws[i := Null]) == held - multiset{ws[i]}
    ensures ws[i] == Null ==> ws[i := Null] == ws
  {
  }

  /** Emptying wrapper `i` without releasing leaves its reference to be owned by someone else. */
  lemma DetachSlot(held: multiset<Handle>, ws: seq<Handle>, i: nat)
    requires i < |ws| && held == Holders(ws)
    ensures held == Holders(ws[i := Null]) + Own(ws[i])
  {
  }

  /** Moving a handle from wrapper `j` into the empty wrapper `i` leaves what wrappers own unchanged. */
  lemma MoveIntoEmpty(held: multiset<Handle>, ws: seq<Handle>, i: nat, j: nat)
    requires i < |ws| && j < |ws| && i != j && ws[i] == Null && held == Holders(ws)
    ensures Holders(ws[i := ws[j]][j := Null]) == held
  {
  }

  /** Copying a handle into the empty wrapper `i` adds the one reference the copy took. */
  lemma CopyIntoEmpty(held: multiset<Handle>, ws: seq<Handle>, i: nat, h: Handle)
    requires i < |ws| && ws[i] == Null && held == Holders(ws)
    ensures Holders(ws[i := h]) == held + Own(h)
  {
  }

  /** A new wrapper holding `h` adds the reference it owns. */
  lemma AppendHolder(ws: seq<Handle>, h: Handle)
    ensures Holders(ws + [h]) == Holders(ws) + Own(h)
  {
  }

  /**
   * The host's side of weak references: the count per handle, which handles have
   * lost their source, and the lookups from source to weak handle, from weak handle
   * to source and from name to source. The ghost registry has one slot per wrapper
   * made on this host and records the handle that wrapper holds.
   */
  class Host {
    var refs: map<Handle, nat>
    var gone: set<Handle>
    var weakOf: map<SourceId, Handle>
    var sourceOf: map<Handle, SourceId>
    var byName: map<string, SourceId>
    /** References owned by weak_source wrappers. */
    ghost var held: multiset<Handle>
    /** References owned by anything else. */
    ghost var others: multiset<Handle>
    /** The handle each wrapper holds, by order of creation; Null once it holds nothing or is destroyed. */
    ghost var registry: seq<Handle>
    /** The wrapper of each slot of `registry`. */
    ghost var owners: seq<WeakSource>
    /** The reference-count calls made so far, in order. */
    ghost var calls: seq<HostCall>

    function Count(h: Handle): nat
      reads this`refs
    {
      if h in refs then refs[h] else 0
    }

    /** The source `s` has the weak handle the result names, or Null when it has none. */
    function WeakOf(s: SourceId): Handle
      reads this`weakOf
    {
      if s != Null && s in weakOf then weakOf[s] else Null
    }

    /** Every count is the number of references someone owns, and the lookups agree. */
    ghost predicate Valid()
      reads this`refs, this`held, this`others, this`weakOf, this`sourceOf, this`byName
    {
      && Null !in held && Null !in others
      && (forall h: Handle :: h != Null ==> Count(h) == held[h] + others[h])
      && (forall s :: s in weakOf ==>
            s != Null && weakOf[s] != Null && weakOf[s] in sourceOf && sourceOf[weakOf[s]] == s)
      && (forall name :: name in byName ==> byName[name] in weakOf)
    }

    /** The references wrappers own are exactly one per non-null handle in the registry. */
    ghost predicate Accounted()
      reads this
    {
      |owners| == |registry| && held == Holders(registry)
    }

    /** Counted one reference per wrapper, what wrappers own is what the host counts for them. */
    lemma HeldIsOwned()
      requires Accounted()
      ensures held == Owned(registry)
    {
      OwnedIsHolders(registry);
    }

    /** `obs_weak_source_addref`: a null handle is ignored. */
    method AddRef(h: Handle)
      requires Valid()
      modifies this`refs, this`held, this`calls
      ensures Valid()
      ensures Count(h) == if h == Null then old(Count(h)) else old(Count(h)) + 1
      ensures held == old(held) + Own(h)
      ensures calls == old(calls) + [HostCall.AddRef(h)]
    {
      if h != Null {
        refs := refs[h := Count(h) + 1];
        held := held + multiset{h};
      }
      calls := calls + [HostCall.AddRef(h)];
    }

    /** `obs_weak_source_release` of a reference a wrapper owned. */
    method Release(h: Handle)
      requires Valid() && h in held
      modifies this`refs, this`held, this`calls
      ensures Valid()
      ensures h != Null && Count(h) == old(Count(h)) - 1
      ensures held == old(held) - multiset{h}
      ensures calls == old(calls) + [HostCall.Release(h)]
    {
      refs := refs[h := Count(h) - 1];
      held := held - multiset{h};
      calls := calls + [HostCall.Release(h)];
    }

    /** The wrapper in `slot` releases the reference it holds and then holds nothing. */
    method ReleaseSlot(h: Handle, ghost slot: nat)
      requires Valid() && Accounted() && slot < |registry| && registry[slot] == h && h != Null
      modifies this`refs, this`held, this`calls, this`registry
      ensures Valid() && Accounted()
      ensures Count(h) == old(Count(h)) - 1
      ensures held == old(held) - multiset{h}
      ensures registry == old(registry)[slot := Null]
      ensures calls == old(calls) + [HostCall.Release(h)]
    {
      ClearSlot(held, registry, slot);
      Release(h);
      Record(registry[slot := Null]);
    }

    /** `obs_source_get_weak_source`: a new reference to the source's weak handle, if any. */
    method GetWeakSource(s: SourceId) returns (h: Handle)
      requires Valid()
      modifies this`refs, this`held, this`calls
      ensures Valid()
      ensures h == old(WeakOf(s))
      ensures h != Null ==> sourceOf[h] == s
      ensures held == old(held) + Own(h)
      ensures calls == old(calls) + [HostCall.GetWeakSource(s)]
    {
      h := WeakOf(s);
      if h != Null {
        refs := refs[h := Count(h) + 1];
        held := held + multiset{h};
      }
      calls := calls + [HostCall.GetWeakSource(s)];
    }

    /** A wrapper takes over a reference its caller owned. */
    ghost method Adopt(h: Handle)
      requires Valid() && h in others
      modifies this`held, this`others
      ensures Valid()
      ensures held == old(held) + multiset{h}
      ensures others == old(others) - multiset{h}
    {
      held := held + multiset{h};
      others := others - multiset{h};
    }

    /** Records which handle each wrapper now holds; the counts are untouched. */
    ghost method Record(r: seq<Handle>)
      requires Valid()
      modifies this`registry
      ensures Valid() && registry == r
    {
      registry := r;
    }

    /** Wrapper `to`, which holds nothing, takes over the handle of wrapper `from`; the counts are untouched. */
    ghost method Transfer(to: nat, from: nat)
      requires Valid() && Accounted() && to < |registry| && from < |registry| && to != from && registry[to] == Null
      modifies this`registry
      ensures Valid() && Accounted()
      ensures registry == old(registry)[to := old(registry)[from]][from := Null]
    {
      MoveIntoEmpty(held, registry, to, from);
      Record(registry[to := registry[from]][from := Null]);
    }

    /** Wrapper `slot` hands its handle to a wrapper not yet registered; the counts are untouched. */
    ghost method Detach(slot: nat)
      requires Valid() && Accounted() && slot < |registry|
      modifies this`registry
      ensures Valid() && |owners| == |registry|
      ensures held == Holders(registry) + Own(old(registry)[slot])
      ensures registry == old(registry)[slot := Null]
    {
      DetachSlot(held, registry, slot);
      Record(registry[slot := Null]);
    }

    /** Wrapper `slot`, which holds nothing, now holds `h`, whose reference was just added. */
    ghost method Fill(slot: nat, h: Handle)
      requires Valid() && |owners| == |registry| && slot < |registry| && registry[slot] == Null
      requires held == Holders(registry) + Own(h)
      modifies this`registry
      ensures Valid() && Accounted()
      ensures registry == old(registry)[slot := h]
    {
      CopyIntoEmpty(Holders(registry), registry, slot, h);
      Record(registry[slot := h]);
    }

    /** `obs_weak_source_expired`. */
    predicate Expired(h: Handle)
      reads this
    {
      h in gone
    }

    /** `obs_weak_source_references_source`. */
    predicate References(h: Handle, s: SourceId)
      reads this
    {
      h != Null && s != Null && h in sourceOf && sourceOf[h] == s
    }
  }

  class WeakSource {
    var ref: Handle
    const host: Host
    /** This wrapper's slot in the host's registry. */
    ghost const slot: nat

    /** The host's counts hold, and this wrapper's slot records the handle it holds. */
    ghost predicate Valid()
      reads this, host
    {
      && host.Valid() && host.Accounted()
      && slot < |host.registry| && host.owners[slot] == this && host.registry[slot] == ref
    }

    /** `weak_source()`: holds nothing and is expired. */
    constructor Empty(host: Host)
      requires host.Valid() && host.Accounted()
      modifies host`registry, host`owners
      ensures this.host == host && ref == Null && Valid()
      ensures host.registry == old(host.registry) + [Null]
      ensures Expired()
    {
      this.host := host;
      ref := Null;
      slot := |host.registry|;
      new;
      AppendHolder(host.registry, Null);
      host.registry := host.registry + [Null];
      host.owners := host.owners + [this];
    }

    /** Wraps a handle whose reference the host already counts as owned by a wrapper. */
    constructor Wrap(host: Host, h: Handle)
      requires host.Valid() && |host.owners| == |host.registry|
      requires host.held == Holders(host.registry) + Own(h)
      modifies host`registry, host`owners
      ensures this.host == host && ref == h && Valid()
      ensures slot == old(|host.registry|)
      ensures host.registry == old(host.registry) + [h]
      ensures host.owners == old(host.owners) + [this]
    {
      this.host := host;
      ref := h;
      slot := |host.registry|;
      new;
      AppendHolder(host.registry, h);
      host.registry := host.registry + [h];
      host.owners := host.owners + [this];
    }

    /**
     * `weak_source(obs_weak_source_t*, bool duplicate)`: rejects null; adds a reference
     * when duplicating, otherwise takes over the caller's.
     */
    static method FromHandle(host: Host, h: Handle, duplicate: bool) returns (r: Result<WeakSource>)
      requires host.Valid() && host.Accounted()
      requires !duplicate && h != Null ==> h in host.others
      modifies host`refs, host`held, host`others, host`calls, host`registry, host`owners
      ensures host.Valid() && host.Accounted()
      ensures h == Null <==> r.Err?
      ensures h == Null ==> r.error == InvalidArgument("source") && host.held == old(host.held)
      ensures h == Null ==> host.calls == old(host.calls) && host.registry == old(host.registry)
      ensures r.Ok? ==> fresh(r.value) && r.value.host == host && r.value.ref == h && r.value.Valid()
      ensures r.Ok? ==> r.value.EqualsHandle(h) && host.registry == old(host.registry) + [h]
      ensures r.Ok? ==> host.held == old(host.held) + multiset{h}
      ensures r.Ok? ==> host.others == if duplicate then old(host.others) else old(host.others) - multiset{h}
      ensures r.Ok? ==> host.calls == old(host.calls) + if duplicate then [HostCall.AddRef(h)] else []
    {
      if h == Null {
        return Err(InvalidArgument("source"));
      }
      if duplicate {
        host.AddRef(h);
      } else {
        host.Adopt(h);
      }
      var w := new WeakSource.Wrap(host, h);
      r := Ok(w);
    }

    /**
     * `weak_source(obs_source_t*)` and `weak_source(const obs::source&)`: a new reference
     * to the source's weak handle; rejects a source that has none.
     */
    static method FromSource(host: Host, s: SourceId) returns (r: Result<WeakSource>)
      requires host.Valid() && host.Accounted()
      modifies host`refs, host`held, host`calls, host`registry, host`owners
      ensures host.Valid() && host.Accounted()
      ensures r.Ok? <==> s != Null && s in old(host.weakOf)
      ensures r.Err? ==> r.error == InvalidArgument("source") && host.held == old(host.held)
      ensures r.Err? ==> host.registry == old(host.registry)
      ensures r.Ok? ==> fresh(r.value) && r.value.host == host && r.value.Valid()
      ensures r.Ok? ==> r.value.ref == old(host.WeakOf(s)) && r.value.EqualsSource(s)
      ensures r.Ok? ==> host.held == old(host.held) + multiset{r.value.ref}
      ensures r.Ok? ==> host.registry == old(host.registry) + [r.value.ref]
      ensures host.calls == old(host.calls) + [HostCall.GetWeakSource(s)]
    {
      var h := host.GetWeakSource(s);
      if h == Null {
        return Err(InvalidArgument("source"));
      }
      var w := new WeakSource.Wrap(host, h);
      r := Ok(w);
    }

    /**
     * `weak_source(std::string_view name)`: rejects an unknown name. The weak handle is
     * not checked for null; a consistent host always has one.
     */
    static method FromName(host: Host, name: string) returns (r: Result<WeakSource>)
      requires host.Valid() && host.Accounted()
      modifies host`refs, host`held, host`calls, host`registry, host`owners
      ensures host.Valid() && host.Accounted()
      ensures r.Ok? <==> name in old(host.byName)
      ensures r.Err? ==> r.error == InvalidArgument("name") && host.held == old(host.held)
      ensures r.Err? ==> host.calls == old(host.calls) && host.registry == old(host.registry)
      ensures r.Ok? ==> fresh(r.value) && r.value.host == host && r.value.Valid()
      ensures r.Ok? ==> r.value.ref != Null && r.value.EqualsSource(old(host.byName[name]))
      ensures r.Ok? ==> host.held == old(host.held) + multiset{r.value.ref}
      ensures r.Ok? ==> host.registry == old(host.registry) + [r.value.ref]
    {
      if name !in host.byName {
        return Err(InvalidArgument("name"));
      }
      var h := host.GetWeakSource(host.byName[name]);
      var w := new WeakSource.Wrap(host, h);
      r := Ok(w);
    }

    /** Move constructor: the handle changes wrapper; no count changes. */
    static method Move(other: WeakSource) returns (w: WeakSource)
      requires other.Valid()
      modifies other, other.host`registry, other.host`owners
      ensures fresh(w) && w.host == other.host && w.ref == old(other.ref) && other.ref == Null
      ensures w.Valid() && other.Valid()
      ensures other.host.registry == old(other.host.registry)[other.slot := Null] + [w.ref]
    {
      var h := other.ref;
      other.host.Detach(other.slot);
      other.ref := Null;
      w := new WeakSource.Wrap(other.host, h);
    }

    /** Copy constructor: shares the handle and adds a reference, calling addref even on null. */
    static method Copy(other: WeakSource) returns (w: WeakSource)
      requires other.Valid()
      modifies other.host`refs, other.host`held, other.host`calls, other.host`registry, other.host`owners
      ensures fresh(w) && w.host == other.host && w.ref == other.ref && w.Equals(other)
      ensures w.Valid() && other.Valid()
      ensures other.host.registry == old(other.host.registry) + [other.ref]
      ensures other.host.held == old(other.host.held) + Own(other.ref)
      ensures other.host.calls == old(other.host.calls) + [HostCall.AddRef(other.ref)]
      ensures Owned(other.host.registry) == Owned(old(other.host.registry)) + Own(other.ref)
      ensures other.host.held == Owned(other.host.registry)
    {
      ghost var before := other.host.registry;
      other.host.AddRef(other.ref);
      w := new WeakSource.Wrap(other.host, other.ref);
      OwnedAppend(before, other.ref);
      other.host.HeldIsOwned();
    }

    /**
     * Destructor: releases the reference if it holds one. Its slot then holds nothing,
     * so a wrapper that held a reference is no longer valid.
     */
    method Dispose()
      requires Valid()
      modifies host`refs, host`held, host`calls, host`registry
      ensures host.Valid() && host.Accounted()
      ensures host.registry == old(host.registry)[slot := Null]
      ensures ref != Null ==> !Valid()
      ensures host.held == old(host.held) - Own(ref)
      ensures host.calls == old(host.calls) + if ref == Null then [] else [HostCall.Release(ref)]
    {
      if ref != Null {
        host.ReleaseSlot(ref, slot);
      }
    }

    /** `reset()`: releases once if it holds a reference, then holds nothing. */
    method Reset()
      requires Valid()
      modifies this, host`refs, host`held, host`calls, host`registry
      ensures Valid() && ref == Null
      ensures host.registry == old(host.registry)[slot := Null]
      ensures host.held == old(host.held) - Own(old(ref))
      ensures host.calls == old(host.calls) + if old(ref) == Null then [] else [HostCall.Release(old(ref))]
    {
      if ref != Null {
        host.ReleaseSlot(ref, slot);
        ref := Null;
      }
    }

    /**
     * Move assignment: releases the target's own reference, then takes the other's
     * handle if it is not null. Assigning a wrapper to itself therefore empties it.
     */
    method MoveAssign(other: WeakSource)
      requires Valid() && other.Valid() && other.host == host
      modifies this, other, host`refs, host`held, host`calls, host`registry
      ensures Valid() && other.Valid()
      ensures other != this ==> ref == old(other.ref) && other.ref == Null
      ensures other == this ==> ref == Null
      ensures other == this ==> host.registry == old(host.registry)[slot := Null]
      ensures other != this ==> host.registry == old(host.registry)[slot := old(other.ref)][other.slot := Null]
      ensures host.held == old(host.held) - Own(old(ref))
      ensures host.calls == old(host.calls) + if old(ref) == Null then [] else [HostCall.Release(old(ref))]
    {
      if other == this {
        Reset();
      } else {
        MoveFrom(other);
      }
    }

    /** Move assignment from a different wrapper. */
    method MoveFrom(other: WeakSource)
      requires Valid() && other.Valid() && other.host == host && other != this
      modifies this, other, host`refs, host`held, host`calls, host`registry
      ensures Valid() && other.Valid()
      ensures ref == old(other.ref) && other.ref == Null
      ensures host.registry == old(host.registry)[slot := old(other.ref)][other.slot := Null]
      ensures host.held == old(host.held) - Own(old(ref))
      ensures host.calls == old(host.calls) + if old(ref) == Null then [] else [HostCall.Release(old(ref))]
      ensures Owned(host.registry) + Own(old(ref)) == Owned(old(host.registry))
      ensures host.held == Owned(host.registry)
    {
      ghost var before: seq<Handle> := host.registry;
      assert other.slot != slot;
      Reset();
      assert other.Valid();
      if other.ref != Null {
        TakeOver(other, before);
      } else {
        assert before[slot := Null][other.slot := Null] == before[slot := Null];
      }
      MoveKeepsOwned(before, slot, other.slot);
      host.HeldIsOwned();
    }

    /**
     * This wrapper, just emptied from the registry `before`, takes over the other's
     * non-null handle.
     */
    method TakeOver(other: WeakSource, ghost before: seq<Handle>)
      requires Valid() && other.Valid() && other.host == host && other != this
      requires ref == Null && other.ref != Null && slot < |before| && host.registry == before[slot := Null]
      modifies this, other, host`registry
      ensures Valid() && other.Valid()
      ensures ref == old(other.ref) && other.ref == Null
      ensures host.registry == before[slot := old(other.ref)][other.slot := Null]
      ensures host.held == old(host.held) && host.calls == old(host.calls)
    {
      assert host.registry[slot := other.ref] == before[slot := other.ref];
      host.Transfer(slot, other.slot);
      ref := other.ref;
      other.ref := Null;
    }

    /**
     * Copy assignment: releases the target's own reference, then adds one to the
     * other's handle if it is not null. Assigning a wrapper to itself therefore empties it.
     */
    method CopyAssign(other: WeakSource)
      requires Valid() && other.Valid() && other.host == host
      modifies this, host`refs, host`held, host`calls, host`registry
      ensures Valid() && other.Valid()
      ensures ref == if other == this then Null else old(other.ref)
      ensures other != this ==> other.ref == old(other.ref)
      ensures host.registry == old(host.registry)[slot := ref]
      ensures host.held == old(host.held) - Own(old(ref)) + (if other == this then multiset{} else Own(old(other.ref)))
      ensures host.calls == old(host.calls)
        + (if old(ref) == Null then [] else [HostCall.Release(old(ref))])
        + (if other == this || old(other.ref) == Null then [] else [HostCall.AddRef(old(other.ref))])
    {
      if other == this {
        Reset();
      } else {
        CopyFrom(other);
      }
    }

    /** Copy assignment from a different wrapper. */
    method CopyFrom(other: WeakSource)
      requires Valid() && other.Valid() && other.host == host && other != this
      modifies this, host`refs, host`held, host`calls, host`registry
      ensures Valid() && other.Valid()
      ensures ref == other.ref == old(other.ref)
      ensures host.registry == old(host.registry)[slot := ref]
      ensures host.held == old(host.held) - Own(old(ref)) + Own(ref)
      ensures host.calls == old(host.calls)
        + (if old(ref) == Null then [] else [HostCall.Release(old(ref))])
        + (if ref == Null then [] else [HostCall.AddRef(ref)])
      ensures Owned(host.registry) + Own(old(ref)) == Owned(old(host.registry)) + Own(ref)
      ensures host.held == Owned(host.registry)
    {
      ghost var before: seq<Handle> := host.registry;
      assert other.slot != slot;
      Reset();
      assert other.Valid();
      if other.ref != Null {
        ShareWith(other, before);
      }
      CopyAddsOne(before, slot, other.slot);
      host.HeldIsOwned();
    }

    /**
     * This wrapper, just emptied from the registry `before`, takes one more reference
     * to the other's non-null handle.
     */
    method ShareWith(other: WeakSource, ghost before: seq<Handle>)
      requires Valid() && other.Valid() && other.host == host && other != this
      requires ref == Null && other.ref != Null && slot < |before| && host.registry == before[slot := Null]
      modifies this, host`refs, host`held, host`calls, host`registry
      ensures Valid() && other.Valid()
      ensures ref == other.ref == old(other.ref)
      ensures host.registry == before[slot := ref]
      ensures host.held == old(host.held) + multiset{ref}
      ensures host.calls == old(host.calls) + [HostCall.AddRef(ref)]
    {
      assert host.registry[slot := other.ref] == before[slot := other.ref];
      host.AddRef(other.ref);
      host.Fill(slot, other.ref);
      ref := other.ref;
    }

    /** `expired()`: true when holding nothing or when the source is gone. */
    predicate Expired()
      reads this, host
      ensures ref == Null ==> Expired()
      ensures !Expired() ==> ref != Null && !host.Expired(ref)
    {
      ref == Null || host.Expired(ref)
    }

    /** `operator bool`: the wrapper still reaches a live source. */
    predicate IsLive()
      reads this, host
      ensures IsLive() <==> !Expired()
      ensures IsLive() ==> ref != Null
    {
      !Expired()
    }

    /** `operator==(obs_weak_source_t*)`: compares the held handle only. */
    predicate EqualsHandle(h: Handle)
      reads this
      ensures EqualsHandle(h) ==> (ref == Null <==> h == Null)
    {
      ref == h
    }

    /** `operator==(const weak_source&)`: compares the held handles only. */
    predicate Equals(other: WeakSource)
      reads this, other
      ensures Equals(other) <==> EqualsHandle(other.ref)
    {
      ref == other.ref
    }

    /** `operator<(const weak_source&)`: pointer order of the held handles. */
    predicate Less(other: WeakSource)
      reads this, other
      ensures Less(other) ==> !Equals(other) && !EqualsHandle(other.ref)
    {
      ref < other.ref
    }

    /**
     * `operator==(const obs::source&)` and `operator==(obs_source_t*)`: whether the
     * held weak handle belongs to that source.
     */
    predicate EqualsSource(s: SourceId)
      reads this, host
      ensures EqualsSource(s) ==> ref != Null && s != Null
    {
      host.References(ref, s)
    }
  }

  /** A handle held in two slots of `ws` counts at least twice. */
  lemma {:induction false} TwoHolders(ws: seq<Handle>, i: nat, j: nat)
    requires i < j < |ws| && ws[i] == ws[j] != Null
    ensures Holders(ws)[ws[i]] >= 2
  {
    assert ws == ws[..j] + [ws[j]] + ws[j + 1..];
    assert ws[..j] == ws[..i] + [ws[i]] + ws[i + 1..j];
    assert multiset(ws)[ws[i]] >= multiset(ws[..j])[ws[i]] + 1;
  }

  /** A wrapper holding a handle keeps a counted reference to it. */
  lemma HolderKeepsCount(w: WeakSource)
    requires w.Valid() && w.ref != Null
    ensures w.ref in w.host.held && w.host.Count(w.ref) >= 1
  {
  }

  /** Two wrappers holding the same handle each own a reference, so its count is at least two. */
  lemma SharedHandleCountsTwice(a: WeakSource, b: WeakSource)
    requires a.Valid() && b.Valid() && a.host == b.host && a != b && a.ref == b.ref != Null
    ensures a.host.Count(a.ref) >= 2
  {
    assert a.slot != b.slot;
    if a.slot < b.slot {
      TwoHolders(a.host.registry, a.slot, b.slot);
    } else {
      TwoHolders(a.host.registry, b.slot, a.slot);
    }
  }

  /** Wrappers equal to the same handle are equal to each other and reference the same sources. */
  lemma SameHandleAgrees(a: WeakSource, b: WeakSource, h: Handle, s: SourceId)
    requires a.host == b.host && a.EqualsHandle(h) && b.EqualsHandle(h)
    ensures a.Equals(b) && a.Expired() == b.Expired()
    ensures a.EqualsSource(s) == b.EqualsSource(s)
  {
  }

  /** `<` is a strict order and, with `==`, a total one: usable as an ordered-container key. */
  lemma OrderLaws(a: WeakSource, b: WeakSource, c: WeakSource)
    ensures !a.Less(a)
    ensures a.Less(b) && b.Less(c) ==> a.Less(c)
    ensures a.Less(b) || a.Equals(b) || b.Less(a)
    ensures a.Equals(b) ==> !a.Less(b) && !b.Less(a)
  {
  }

  /** Equal wrappers agree on expiry, on liveness and on the source they reference. */
  lemma EqualWrappersAgree(a: WeakSource, b: WeakSource, s: SourceId)
    requires a.host == b.host && a.Equals(b)
    ensures a.Expired() == b.Expired() && a.IsLive() == b.IsLive()
    ensures a.EqualsSource(s) == b.EqualsSource(s)
  {
  }
}
